=== FILE: README.md ===
# Slack ↔ LangGraph bridge, modelled in Dafny

This project models the decision and translation logic of the Slack bridge in
`src/langgraph_slack/server.py`. The bridge receives Slack `message` events
and queues the ones addressed to the bot. A background worker turns each
queued event into a LangGraph run on a thread named after the Slack
conversation. The run's webhook brings the backend's final state back as a
callback. The worker correlates the callback with its conversation and posts
the last message to Slack, converted from Markdown to Slack mrkdwn.

The network calls appear as the request values they would send: a
`Dispatch.RunRequest` for `runs.create` and a `Correlator.PostRequest` for
`chat_postMessage`. The asyncio queue is a sequence. The worker loop is a
fold over that sequence (`Worker.Drain`), plus a loop (`Worker.RunWorker`)
proved equal to the fold.

Modules, one per file:

- `Wrappers` (`wrappers.dfy`): `Option` and `Result`.
- `Strings` (`strings.dfy`): prefix and occurrence tests, and first-index scans.
  - `IsSpace` is the set of characters Python's `\s` matches; it includes `'\n'`.
  - Python truthiness and `or` on optional strings.
  - f-string rendering of `None`.
- `Events` (`events.dfy`): the data model. It holds Slack events, callback bodies, queued tasks, the configuration and the errors a task raises.
- `Mention` (`mention.dfy`): the `<@BOT>` token, `_is_mention` and `_replace_mention`.
- `Classifier` (`classifier.dfy`): `handle_message`, `_is_dm` and `webhook_callback`.
- `ThreadIdentity` (`thread_identity.dfy`): the anchor, the `SLACK:{anchor}-{channel}` key, the thread id and the webhook URL.
- `BlockText` (`block_text.dfy`): `_get_text`.
- `Markdown` (`markdown.dfy`): the six rewrites of `_clean_markdown`, in the order as written and in the corrected order.
  - Each rewrite is a left-to-right scan that follows Python `re.sub`: the leftmost match is replaced, and the scan resumes after it.
  - Where a pattern uses `^` (MULTILINE) or the `(?<!\*)` lookbehind, the scan carries one bit of context, taken from the text the rewrite started from.
- `Dispatch` (`dispatch.dfy`): the `slack_message` branch of `_process_task`.
- `Correlator` (`callback.dfy`): the `callback` branch of `_process_task`.
- `Worker` (`worker.dfy`): `_process_task` dispatch and the `worker` loop.
- `Pipeline` (`pipeline.dfy`): properties that span several of the above. They cover the round trip through the backend and the worked scenarios.

`uuid.uuid5(NAMESPACE_DNS, name)` is a function-valued configuration field,
`Config.uuid5`. The model covers the name composed for it, not the hash.
`config.py` defines no `SLACK_CHANNEL_ID`, so the configured default channel
is an optional parameter, `Config.defaultChannel`.

## Model

| member | source | states |
|---|---|---|
| Classifier.HandleMessage | src/langgraph_slack/server.py:149-163 | An event without `text` raises a missing-key error, even when it would be ignored. An event with text is appended to the queue exactly when it qualifies: the author is present and non-empty, it is not the bot, and it mentions the bot or is in an "im" channel. Otherwise the queue is unchanged. |
| Classifier.IsDm | src/langgraph_slack/server.py:224-227 | No contract of its own; `Classifier.IsDmExactlyIm` states that it holds exactly for channel type "im". |
| Classifier.IsDmExactlyIm | src/langgraph_slack/server.py:224-227 | An event counts as a direct message exactly when its channel type is "im". A missing channel type never counts. |
| Classifier.WebhookCallback | src/langgraph_slack/server.py:200-207 | The callback body is appended to the queue as a callback task, and the route answers "success". |
| Mention.Token | src/langgraph_slack/server.py:38 | The mention token is `<@`, then the bot id, then `>`: the id sits between the delimiters and the token is three characters longer. |
| Mention.IsMention | src/langgraph_slack/server.py:211-213 | No contract of its own (an occurrence test of the token); `Mention.ReplaceMentionWithoutToken` and `Dispatch.MentionGone` state what it decides. |
| Mention.ReplaceMention | src/langgraph_slack/server.py:216-217 | A text without a mention is sent unchanged. Removal of every mention is `Mention.ReplaceAllRemovesToken`, idempotence is `Mention.ReplaceMentionIdempotent`. |
| Mention.ReplaceAll | src/langgraph_slack/server.py:216-217 | A text that does not contain the token comes back unchanged. |
| Mention.ReplaceAllHead | src/langgraph_slack/server.py:216-217 | An occurrence at the head is replaced, and the scan resumes right after it (non-overlapping). |
| Mention.ReplaceAllSkip | src/langgraph_slack/server.py:216-217 | A character where no occurrence starts is copied unchanged. |
| Mention.PrefixBeforeReplacement | src/langgraph_slack/server.py:216-217 | Up to the first replacement character, the output agrees with the input. |
| Mention.HeadOccurrence | src/langgraph_slack/server.py:216-217 | When token and replacement share no character, a copied character followed by rewritten text starts an occurrence only if the input already did. |
| Mention.ReplaceAllRemovesToken | src/langgraph_slack/server.py:216-217 | When token and replacement share no character, no occurrence of the token is left in the output. |
| Mention.ReplaceMentionIdempotent | src/langgraph_slack/server.py:216-217 | Rewriting twice equals rewriting once, when the bot id shares no character with "assistant". |
| Mention.ReplaceMentionNotIdempotentInGeneral | src/langgraph_slack/server.py:216-217 | With bot id "assistant", a second pass changes the output of the first. |
| Mention.StrippingRebuildsToken | src/langgraph_slack/server.py:216-217 | With bot id "assistant", one pass over `<@` + token + `>` yields the token again. |
| Mention.StrippingToken | src/langgraph_slack/server.py:216-217 | The token alone becomes "assistant". |
| Mention.ReplaceMentionWithoutToken | src/langgraph_slack/server.py:211-217 | When `_is_mention` is false, the text is sent unchanged. |
| ThreadIdentity.LastSegment | src/langgraph_slack/server.py:200 | The segment the `/callbacks/{thread_id}` route binds is the suffix of the URL after its last '/', and contains no '/'. |
| ThreadIdentity.Anchor | src/langgraph_slack/server.py:87 | No contract of its own; `ThreadIdentity.ReplyJoinsRootThread` states that a reply takes its root's `ts`. |
| ThreadIdentity.ThreadKey | src/langgraph_slack/server.py:220-221 | No contract of its own; injectivity is `ThreadIdentity.ThreadKeyInjective`, the collision is `ThreadIdentity.ThreadKeyAmbiguous`. |
| ThreadIdentity.ThreadId | src/langgraph_slack/server.py:220-221 | No contract of its own (uuid5 of the key); `Dispatch.SameConversationSameThread` and `ThreadIdentity.ReplyJoinsRootThread` state which events share an id. |
| ThreadIdentity.WebhookUrl | src/langgraph_slack/server.py:90 | No contract of its own; `ThreadIdentity.WebhookNamesThread` states that the callback route recovers the thread id from it. |
| ThreadIdentity.ReplyJoinsRootThread | src/langgraph_slack/server.py:86-88 | A reply whose `thread_ts` is the root's non-empty `ts`, in the same channel, has the root's anchor and thread id. |
| ThreadIdentity.ThreadKeyInjective | src/langgraph_slack/server.py:220-221 | For anchors without '-', two keys are equal if and only if anchors and channels are equal. |
| ThreadIdentity.ThreadKeyAmbiguous | src/langgraph_slack/server.py:220-221 | Anchors with '-' collide: ("1-2", "C") and ("1", "2-C") name the same thread. |
| ThreadIdentity.WebhookNamesThread | src/langgraph_slack/server.py:90 | For any deployment URL, the last segment of the webhook is the thread id, when the id has no '/'. |
| BlockText.GetText | src/langgraph_slack/server.py:183-187 | A plain string is returned as is. A block list raises exactly when some block lacks `type`, or is a text block without `text`. |
| BlockText.JoinText | src/langgraph_slack/server.py:187 | No contract of its own; `BlockText.JoinTextFailsIffMalformed`, `JoinTextAppend`, `JoinTextSingle` and `JoinTextNoTextBlocks` state what it computes. |
| BlockText.JoinTextFailsIffMalformed | src/langgraph_slack/server.py:187 | Joining raises if and only if some block is malformed. |
| BlockText.JoinTextAppend | src/langgraph_slack/server.py:187 | The joined text distributes over list concatenation, and the first part's error wins. |
| BlockText.JoinTextSingle | src/langgraph_slack/server.py:187 | A text block contributes exactly its text; any other well-formed block contributes "". |
| BlockText.JoinTextNoTextBlocks | src/langgraph_slack/server.py:187 | Well-formed blocks with no text block among them join to "". |
| Markdown.FenceLineAt | src/langgraph_slack/server.py:191 | A fence line matches exactly when the text starts with three backticks and a line break follows. The match ends at the first such break. |
| Markdown.DropFenceTags | src/langgraph_slack/server.py:191 | The fence rule keeps the number of line breaks. A single line, or a text without backticks, is unchanged. |
| Markdown.FenceTagDropped | src/langgraph_slack/server.py:191 | At a line start, a fence line with a language tag becomes a bare fence line, and the rest is rewritten on its own. |
| Markdown.LinkAt | src/langgraph_slack/server.py:192 | A link match is `[text](url)`, with a non-empty text without ']' and a non-empty url without ')'. |
| Markdown.RewriteLinks | src/langgraph_slack/server.py:192 | A text without '[' is unchanged. |
| Markdown.LinkRewritten | src/langgraph_slack/server.py:192 | `[text](url)` becomes a Slack link holding the url and then the text, between angle brackets and separated by a vertical bar; the scan resumes after it. |
| Markdown.BoldAt | src/langgraph_slack/server.py:193 | A bold match is `**x**`, with a non-empty x without '*'. |
| Markdown.Bold | src/langgraph_slack/server.py:193 | A text without '*' is unchanged. |
| Markdown.BoldHead | src/langgraph_slack/server.py:193 | `**x**` becomes `*x*`, and the scan resumes after it. |
| Markdown.BoldCopies | src/langgraph_slack/server.py:193 | A star-free stretch is copied by the bold rule. |
| Markdown.BoldSkipsLoneStar | src/langgraph_slack/server.py:193 | A single '*' followed by star-free text is copied by the bold rule. |
| Markdown.ItalicAt | src/langgraph_slack/server.py:194 | An italic match is `*x*` that neither follows nor precedes another '*'. |
| Markdown.Italic | src/langgraph_slack/server.py:194 | A text without '*' is unchanged. |
| Markdown.ItalicHead | src/langgraph_slack/server.py:194 | A `*x*` not followed by '*' becomes `_x_`, and the scan resumes after it. |
| Markdown.ItalicSkipsPair | src/langgraph_slack/server.py:194 | A `**` is copied by the italic rule: the first '*' fails `[^*]+`, and the second fails the lookbehind. |
| Markdown.ItalicCopies | src/langgraph_slack/server.py:194 | A star-free stretch is copied by the italic rule. |
| Markdown.UnderscoreAt | src/langgraph_slack/server.py:195 | A match at the head of a text is `_x_` with x non-empty and free of '_'. |
| Markdown.Underscores | src/langgraph_slack/server.py:195 | The underscore rule is the identity. |
| Markdown.BulletAt | src/langgraph_slack/server.py:196 | `^\s*[-*]\s` matches at a line start exactly when some run of whitespace is followed by '-' or '*' and one more whitespace character. That run is unique, so the match covers it and two more characters. |
| Markdown.Bullets | src/langgraph_slack/server.py:196 | A text without '-' or '*' is unchanged. |
| Markdown.BulletHead | src/langgraph_slack/server.py:196 | At a line start, optional whitespace, a marker and one whitespace character become "• ". |
| Markdown.BulletsCopies | src/langgraph_slack/server.py:196 | Inside a line, text without line breaks is copied by the list rule. |
| Markdown.CleanMarkdown | src/langgraph_slack/server.py:190-197 | The converter as written leaves a single line without '[', '*' or '-' unchanged. |
| Markdown.BoldRendersAsItalic | src/langgraph_slack/server.py:193-194 | As written, `p**x**` is posted as `p_x_`. The bold rule's `*x*` is rewritten again by the italic rule. |
| Markdown.ItalicRendersAsUnderscore | src/langgraph_slack/server.py:194 | As written, `p*x*` is posted as `p_x_`. |
| Markdown.StarListRendersAsItalic | src/langgraph_slack/server.py:194-196 | As written, the two-item list `* a` / `* b` is posted as `_ a` / `_ b`. The italic rule pairs the two markers before the list rule runs. |
| Markdown.CleanMarkdownIntended | src/langgraph_slack/server.py:190-197 | The corrected order leaves a single line without '[', '*' or '-' unchanged. |
| Markdown.IntendedBoldStaysBold | src/langgraph_slack/server.py:193-194 | In the corrected order, `p**x**` is posted as Slack bold `p*x*`. |
| Markdown.IntendedItalic | src/langgraph_slack/server.py:194 | In the corrected order, `p*x*` is still posted as `p_x_`. |
| Markdown.IntendedStarListBecomesBullets | src/langgraph_slack/server.py:196 | In the corrected order, `* a` / `* b` becomes two "• " bullets. |
| Dispatch.BuildRun | src/langgraph_slack/server.py:85-119 | An event without text raises. Otherwise there is one run on the thread of (anchor, channel), as the user role. Its content is the mention-rewritten text: the text itself when there is no mention, and free of mentions for a bot id disjoint from "assistant". The webhook is the deployment URL ("None" when unset) followed by `/callbacks/` and the thread id, so its last segment is the id. The metadata echoes channel, `thread_ts`, `ts` and channel type. The metadata is tagged event "slack" and Slack event type "message". The strategy is "interrupt", and the thread is created if missing. |
| Dispatch.MentionGone | src/langgraph_slack/server.py:98-104 | For a bot id disjoint from "assistant", the run input holds no mention of the bot. |
| Dispatch.SameConversationSameThread | src/langgraph_slack/server.py:86-90 | Events with the same anchor and channel get the same thread id and the same webhook. |
| Dispatch.ReplyRunsOnRootThread | src/langgraph_slack/server.py:86-88 | A reply in a thread runs on its root message's thread. |
| Correlator.Correlate | src/langgraph_slack/server.py:121-144 | Errors come in this order: an empty message list, then no channel (the echoed channel or else the default), then a malformed last content. The post succeeds exactly when none applies. It uses the echoed channel when non-empty, else the default. It threads under `thread_ts`, else `event_ts`. It posts the text of the last message converted by the corrected converter (see Left out) and carries the callback's thread id. |
| Correlator.ReplyChannel | src/langgraph_slack/server.py:128 | No contract of its own; `Correlator.Correlate` states which channel wins, and `Correlator.EchoedChannelWins` that the default is ignored for a non-empty echoed channel. |
| Correlator.OnlyLastMessagePosted | src/langgraph_slack/server.py:124 | Messages before the last one never change the post. |
| Correlator.EchoedChannelWins | src/langgraph_slack/server.py:128 | With a non-empty echoed channel, the configured default is irrelevant. |
| Worker.ProcessTask | src/langgraph_slack/server.py:78-146 | A `slack_message` task issues its run or raises on the missing "text" key; a `callback` task issues its post or raises the callback branch's error. Any other type raises "Unknown event type"; a falsy `{}` raises on the missing "event". |
| Worker.Drain | src/langgraph_slack/server.py:58-75 | Tasks are processed in queue order, each once, up to the first sentinel. The worker stops exactly when a sentinel is queued, and the tasks behind it are left. `task_done` is called once per `get`, the sentinel included. |
| Worker.RunWorker | src/langgraph_slack/server.py:58-75 | The loop computes the fold's trace. |
| Worker.ProcessUntilSentinel | src/langgraph_slack/server.py:60-70 | The loop processes the tasks in queue order, each once, and stops at the first sentinel or at the end of the queue. |
| Worker.DrainUnique | src/langgraph_slack/server.py:58-75 | The worker's trace is determined by the queue: any trace with the fold's properties is the fold's trace. |
| Worker.DrainAppend | src/langgraph_slack/server.py:58-75 | Draining a sentinel-free prefix and then the rest equals draining the whole queue. |
| Worker.NTasksThenSentinel | src/langgraph_slack/server.py:60-67 | N tasks followed by the sentinel give exactly N attempts, in order, and N + 1 `task_done` calls. Tasks queued after the sentinel are never processed. |
| Worker.ErrorsNeverStopWorker | src/langgraph_slack/server.py:72-75 | How far the worker gets is independent of what the tasks raise. |
| Worker.UnknownTypeSkipped | src/langgraph_slack/server.py:145-146 | A task of unknown type raises, and the worker goes on to the next task. |
| Pipeline.ReplyLandsInConversation | src/langgraph_slack/server.py:107-128 | When the backend echoes the run's metadata, the reply is posted in the event's channel, under the anchor the thread id was computed from, with the run's thread id. |
| Pipeline.QualifyingEventIsDispatched | src/langgraph_slack/server.py:158-162 | A qualifying event is queued, and the worker issues its run when no sentinel is ahead of it. |
| Pipeline.IgnoredEventIsNotDispatched | src/langgraph_slack/server.py:158-160 | An ignored event leaves the queue, and so the worker's trace, unchanged. |
| Pipeline.MentionScenario | src/langgraph_slack/server.py:86-104 | "<@bot> hello" at ts 100.1 in channel C1 runs on the thread of "SLACK:100.1-C1" with input "assistant hello". |
| Pipeline.MentionAtHead | src/langgraph_slack/server.py:216-217 | A leading mention followed by text without '<' becomes "assistant" followed by that text. |
| Pipeline.BoldReplyScenario | src/langgraph_slack/server.py:136 | A reply `p**x**` is posted as `p*x*` under the corrected converter. |
| Pipeline.HiThereScenario | src/langgraph_slack/server.py:193-194 | "Hi **there**" becomes "Hi _there_" as written, and "Hi *there*" in the corrected order. |
| Pipeline.PostedText | src/langgraph_slack/server.py:136 | A plain-text last message is posted through the corrected converter (see Left out). |
| Pipeline.MissingChannelScenario | src/langgraph_slack/server.py:128-132 | With no echoed channel and no default, the callback raises, and no post is made. |

## Left out

- The FastAPI routes, the Slack Bolt handler wiring, `just_ack` and `ack()` are HTTP and SDK plumbing. `webhook_callback` is kept only as "append the body, answer success".
- `runs.create` and `chat_postMessage` are network calls. The model produces their arguments, not their effects.
- The `config=GRAPH_CONFIG` argument of the run is not modelled. It is JSON parsed at import time and is passed through unchanged.
- `uuid.uuid5` (SHA-1) is an opaque function of the name.
- The import-time bot-id lookup through `auth_test` is left out; the bot id is a configuration field.
- asyncio concurrency is left out. The queue is a sequence, and the worker consumes it sequentially.
- Logging is left out.
- `config.py` (environment loading) is left out. It has no `SLACK_CHANNEL_ID`, so as written the default-channel fallback raises `AttributeError`. The model takes an optional default, where `None` is the missing-channel error.
- Exception types are not distinguished beyond the `Events.Error` cases. KeyError, IndexError, ValueError and AttributeError each become one error value, and the worker swallows all of them alike.
- Keys that the source indexes without `.get`, and that the model makes plain fields, are assumed present: the event's `ts` and `channel`; the callback body's `thread_id`, `values`, `messages` and `metadata`; the last message's `content`; and a queued task's `event` and `type`. A non-empty task without `event` raises KeyError in the source, where the model's `Unknown(kind)` task raises the unknown-type error. Only `text`, a block's `type` and `text`, and the callback's messages list are modelled as possibly missing or empty.
- The bot id is compiled into a regular expression unescaped. The model treats it as a literal, which Slack's alphanumeric ids are.
- The Modal deployment block, `test.py` and `src/graphs/agent.py` are not part of this model.
- Mention.ReplaceMentionIdempotent: proved only for bot ids sharing no character with "assistant". Without that proviso idempotence fails; `Mention.ReplaceMentionNotIdempotentInGeneral` shows a counterexample.
- Markdown.CleanMarkdownIntended: like `CleanMarkdown`, its contract covers only the identity on plain single lines; its behaviour on bold, italics and lists is given by `IntendedBoldStaysBold`, `IntendedItalic` and `IntendedStarListBecomesBullets`.
- Correlator.Correlate: posts the last message through the corrected converter, `Markdown.CleanMarkdownIntended`, not `_clean_markdown` as written at server.py:136. The two differ on Markdown bold (`**x**` is posted as `*x*`, where the source posts `_x_`) and on '*' lists; the as-written behaviour is proved in `Markdown.BoldRendersAsItalic` and `Markdown.StarListRendersAsItalic`.
- Pipeline.PostedText: states the post under the corrected converter, so it differs from server.py:136 on the same inputs as `Correlator.Correlate`.
- Markdown.CleanMarkdown: its contract covers only the identity on plain single lines. Its behaviour on emphasis and lists is given by the lemmas about concrete shapes (`BoldRendersAsItalic`, `StarListRendersAsItalic` and the head and copy lemmas of each rule), not by a closed formula for every input.

## Findings

| source | as written | input that shows it | evidently intended | confidence | as-written member | corrected member |
|---|---|---|---|---|---|---|
| src/langgraph_slack/server.py:193-194 | The bold rule rewrites `**x**` to Slack bold `*x*`. The italic rule then runs on its output and rewrites that `*x*` to `_x_`. | "Hi **there**" is posted as "Hi _there_" | Markdown bold becomes Slack bold: "Hi *there*" | not executed | Markdown.BoldRendersAsItalic | Markdown.IntendedBoldStaysBold |
| src/langgraph_slack/server.py:194-196 | The italic rule runs before the list rule and pairs the '*' markers of two consecutive list items. | "* a\n* b" is posted as "_ a\n_ b" | both items become bullets: "• a\n• b" | not executed | Markdown.StarListRendersAsItalic | Markdown.IntendedStarListBecomesBullets |

The corrected converter, `Markdown.CleanMarkdownIntended`, rewrites list markers before emphasis and italics before bold. `Correlator.Correlate` uses it. Markdown's `**bold**` is meant to become Slack's `*bold*`; the code as written does not deliver that. `Pipeline.HiThereScenario` states both outcomes side by side.

=== FILE: block_text.dfy ===
/** `_get_text`: the text of a message content. A plain string is returned as
    is; a list of blocks yields the in-order concatenation of the `text` of
    the blocks whose `type` is "text". Indexing a block without `type`, or a
    text block without `text`, raises. */
module BlockText {
  import opened Wrappers
  import opened Events

  /** A block whose indexing raises inside the list comprehension. */
  predicate Malformed(b: Block) {
    b.kind.None? || (b.kind == Some("text") && b.text.None?)
  }

  /** The `"".join([...])` over a block list, raising at the first malformed
      block. */
  function JoinText(blocks: seq<Block>): (r: Result<string, Error>)
    decreases |blocks|
  {
    if |blocks| == 0 then Success("")
    else
      var b := blocks[0];
      match b.kind
      case None => Failure(MissingKey("type"))
      case Some(kind) =>
        if kind != "text" then JoinText(blocks[1..])
        else match b.text
          case None => Failure(MissingKey("text"))
          case Some(t) =>
            match JoinText(blocks[1..])
            case Failure(e) => Failure(e)
            case Success(u) => Success(t + u)
  }

  /** `_get_text`: a plain string is returned as is; a block list is joined,
      and raises exactly when one of its blocks is malformed. */
  function GetText(content: Content): (r: Result<string, Error>)
    ensures content.Plain? ==> r == Success(content.s)
    ensures content.Blocks? ==>
              (r.Failure? <==> exists i :: 0 <= i < |content.blocks| && Malformed(content.blocks[i]))
  {
    match content
    case Plain(s) => Success(s)
    case Blocks(blocks) =>
      JoinTextFailsIffMalformed(blocks);
      JoinText(blocks)
  }

  /** Joining fails exactly when some block is malformed. */
  lemma {:induction false} JoinTextFailsIffMalformed(blocks: seq<Block>)
    ensures JoinText(blocks).Failure? <==> exists i :: 0 <= i < |blocks| && Malformed(blocks[i])
    decreases |blocks|
  {
    if |blocks| > 0 {
      JoinTextFailsIffMalformed(blocks[1..]);
      if exists i :: 0 <= i < |blocks[1..]| && Malformed(blocks[1..][i]) {
        var i :| 0 <= i < |blocks[1..]| && Malformed(blocks[1..][i]);
        assert Malformed(blocks[i + 1]);
      }
      if exists i :: 0 <= i < |blocks| && Malformed(blocks[i]) {
        var i :| 0 <= i < |blocks| && Malformed(blocks[i]);
        if i > 0 {
          assert Malformed(blocks[1..][i - 1]);
        }
      }
    }
  }

  /** The text of a list of blocks is the text of its first part followed by
      the text of its second part, and an error in the first part wins. */
  lemma {:induction false} JoinTextAppend(a: seq<Block>, b: seq<Block>)
    ensures JoinText(a + b) ==
      match JoinText(a)
      case Failure(e) => Failure(e)
      case Success(x) =>
        match JoinText(b)
        case Failure(e) => Failure(e)
        case Success(y) => Success(x + y)
    decreases |a|
  {
    if |a| == 0 {
      assert a + b == b;
      if JoinText(b).Success? {
        assert "" + JoinText(b).value == JoinText(b).value;
      }
    } else {
      assert (a + b)[0] == a[0];
      assert (a + b)[1..] == a[1..] + b;
      JoinTextAppend(a[1..], b);
      match JoinText(a[1..])
      case Failure(e) =>
      case Success(x) =>
        match JoinText(b)
        case Failure(e) =>
        case Success(y) =>
          if a[0].kind == Some("text") && a[0].text.Some? {
            assert a[0].text.value + (x + y) == (a[0].text.value + x) + y;
          }
    }
  }

  /** A single text block contributes exactly its text; any other well-formed
      block contributes nothing. */
  lemma JoinTextSingle(b: Block)
    requires !Malformed(b)
    ensures b.kind == Some("text") ==> JoinText([b]) == Success(b.text.value)
    ensures b.kind != Some("text") ==> JoinText([b]) == Success("")
  {
    assert [b][1..] == [];
    if b.kind == Some("text") {
      assert b.text.value + "" == b.text.value;
    }
  }

  /** Well-formed blocks none of which is a text block yield "". */
  lemma {:induction false} JoinTextNoTextBlocks(blocks: seq<Block>)
    requires forall i :: 0 <= i < |blocks| ==> blocks[i].kind.Some? && blocks[i].kind.value != "text"
    ensures JoinText(blocks) == Success("")
    decreases |blocks|
  {
    if |blocks| > 0 {
      JoinTextNoTextBlocks(blocks[1..]);
    }
  }
}

=== FILE: callback.dfy ===
/** The `callback` branch of the worker: the backend's callback body is
    correlated back to the Slack conversation it came from and becomes one
    `chat.postMessage` request carrying the last state message, converted to
    Slack mrkdwn. The conversion is the corrected rule order
    (`Markdown.CleanMarkdownIntended`); the order as written turns Markdown
    bold into italics and eats '*' list markers. */
module Correlator {
  import opened Wrappers
  import opened Strings
  import opened Events
  import BlockText
  import Markdown

  /** The arguments of `chat.postMessage`. `threadTs` is `None` when neither
      timestamp was echoed, which posts at the channel's top level. */
  datatype PostRequest = PostRequest(
    channel: string,
    threadTs: Option<string>,
    text: string,
    eventType: string,
    threadId: string)

  /** The channel a callback is answered in: the echoed channel when
      non-empty, else the configured default. */
  function ReplyChannel(cfg: Config, meta: CallbackMeta): Option<string> {
    Or(meta.channel, cfg.defaultChannel)
  }

  /** The post issued for a callback body. The errors come in the order the
      branch raises them: the empty message list first, then the missing
      channel, then a malformed content. */
  function Correlate(cfg: Config, p: CallbackPayload): (r: Result<PostRequest, Error>)
    ensures |p.messages| == 0 ==> r == Failure(EmptyMessages)
    ensures |p.messages| > 0 && !Truthy(ReplyChannel(cfg, p.metadata)) ==> r == Failure(MissingChannel)
    ensures r.Success? <==>
              && |p.messages| > 0
              && Truthy(ReplyChannel(cfg, p.metadata))
              && BlockText.GetText(p.messages[|p.messages| - 1].content).Success?
    ensures r.Failure? && |p.messages| > 0 && Truthy(ReplyChannel(cfg, p.metadata)) ==>
              r.error == BlockText.GetText(p.messages[|p.messages| - 1].content).error
    ensures r.Success? ==> r.value.channel != ""
    ensures r.Success? && Truthy(p.metadata.channel) ==> r.value.channel == p.metadata.channel.value
    ensures r.Success? && !Truthy(p.metadata.channel) ==> Some(r.value.channel) == cfg.defaultChannel
    ensures r.Success? && Truthy(p.metadata.threadTs) ==> r.value.threadTs == p.metadata.threadTs
    ensures r.Success? && !Truthy(p.metadata.threadTs) ==> r.value.threadTs == p.metadata.eventTs
    ensures r.Success? ==>
              r.value.text == Markdown.CleanMarkdownIntended(BlockText.GetText(p.messages[|p.messages| - 1].content).value)
    ensures r.Success? ==> r.value.threadId == p.threadId && r.value.eventType == "webhook"
  {
    if |p.messages| == 0 then Failure(EmptyMessages)
    else
      var last := p.messages[|p.messages| - 1];
      var threadTs := Or(p.metadata.threadTs, p.metadata.eventTs);
      var channel := ReplyChannel(cfg, p.metadata);
      if !Truthy(channel) then Failure(MissingChannel)
      else
        match BlockText.GetText(last.content)
        case Failure(e) => Failure(e)
        case Success(text) =>
          Success(PostRequest(channel.value, threadTs, Markdown.CleanMarkdownIntended(text), "webhook", p.threadId))
  }

  /** Only the last message of the state is posted: messages before it never
      change the post. */
  lemma OnlyLastMessagePosted(cfg: Config, p: CallbackPayload, earlier: seq<Message>)
    requires |p.messages| > 0
    ensures Correlate(cfg, p.(messages := earlier + p.messages)) == Correlate(cfg, p)
  {
    var q := p.(messages := earlier + p.messages);
    assert q.messages[|q.messages| - 1] == p.messages[|p.messages| - 1];
  }

  /** The configured default channel is used only when the echoed channel is
      missing or empty. */
  lemma EchoedChannelWins(cfg: Config, default: Option<string>, p: CallbackPayload)
    requires Truthy(p.metadata.channel)
    ensures Correlate(cfg.(defaultChannel := default), p) == Correlate(cfg, p)
  {
  }
}

=== FILE: classifier.dfy ===
/** The inbound side of the bridge: `handle_message` decides whether a Slack
    message event becomes a `slack_message` task, and `webhook_callback`
    enqueues the backend's callback body. The queue is a sequence; enqueueing
    appends. */
module Classifier {
  import opened Wrappers
  import opened Strings
  import opened Events
  import Mention

  /** `_is_dm`: a present, non-empty channel type that equals "im". */
  predicate IsDm(e: ChatEvent) {
    if Truthy(e.channelType) then e.channelType.value == "im" else false
  }

  /** The classifier's truth table: an author that is present and non-empty,
      not the bot itself, and either a mention of the bot in the text or a
      direct-message channel. */
  predicate Qualifies(bot: string, e: ChatEvent)
    requires e.text.Some?
  {
    && e.user.Some? && |e.user.value| > 0
    && (e.botId.None? || e.botId.value != bot)
    && (Mention.IsMention(bot, e.text.value) || e.channelType == Some("im"))
  }

  /** `handle_message`: all four tests are evaluated before the decision, so
      an event without text raises even when it would be ignored. */
  function HandleMessage(bot: string, queue: seq<Task>, e: ChatEvent): (r: Result<seq<Task>, Error>)
    ensures r.Failure? <==> e.text.None?
    ensures r.Failure? ==> r.error == MissingKey("text")
    ensures r.Success? && Qualifies(bot, e) ==> r.value == queue + [SlackMessage(e)]
    ensures r.Success? && !Qualifies(bot, e) ==> r.value == queue
  {
    match e.text
    case None => Failure(MissingKey("text"))
    case Some(text) =>
      var noUser := !Truthy(e.user);
      var userIsBot := e.botId == Some(bot);
      var isMention := Mention.IsMention(bot, text);
      var isDm := IsDm(e);
      if noUser || userIsBot || !(isMention || isDm) then Success(queue)
      else Success(queue + [SlackMessage(e)])
  }

  /** A missing or empty channel type never makes an event a direct message;
      only "im" does. */
  lemma IsDmExactlyIm(e: ChatEvent)
    ensures IsDm(e) <==> e.channelType == Some("im")
    ensures e.channelType.None? ==> !IsDm(e)
  {
  }

  /** `webhook_callback`: the body is appended to the queue as a `callback`
      task and the route answers {"status": "success"}. */
  function WebhookCallback(queue: seq<Task>, body: CallbackPayload): (r: (seq<Task>, string))
    ensures |r.0| == |queue| + 1
    ensures r.0[..|queue|] == queue && r.0[|queue|] == Callback(body)
    ensures r.1 == "success"
  {
    (queue + [Callback(body)], "success")
  }
}

=== FILE: dispatch.dfy ===
/** The `slack_message` branch of the worker: a queued Slack event becomes
    one run request to the backend, on the thread named by the event's
    conversation, with the mention rewritten to "assistant", a webhook that
    names the thread, and metadata echoing where the message came from. */
module Dispatch {
  import opened Wrappers
  import opened Strings
  import opened Events
  import opened ThreadIdentity
  import Mention

  /** One input message of a run. */
  datatype InputMessage = InputMessage(role: string, content: string)

  /** The run's `metadata`; the backend echoes it back in the callback body. */
  datatype RunMetadata = RunMetadata(
    event: string,
    slackEventType: string,
    botUserId: string,
    channel: string,
    threadTs: Option<string>,
    eventTs: string,
    channelType: Option<string>)

  /** The arguments of `runs.create`. */
  datatype RunRequest = RunRequest(
    threadId: string,
    assistantId: string,
    input: seq<InputMessage>,
    metadata: RunMetadata,
    multitaskStrategy: string,
    ifNotExists: string,
    webhook: string)

  /** The run issued for a queued Slack event. The event's text is read
      (for the log line and the mention rewrite), so an event without text
      raises before any request. */
  function BuildRun(cfg: Config, e: ChatEvent): (r: Result<RunRequest, Error>)
    ensures r.Failure? <==> e.text.None?
    ensures r.Failure? ==> r.error == MissingKey("text")
    ensures r.Success? ==> r.value.threadId == ThreadId(cfg.uuid5, Anchor(e), e.channel)
    ensures r.Success? ==> r.value.webhook == Render(cfg.deploymentUrl) + CallbackPath + r.value.threadId
    ensures r.Success? ==> '/' !in r.value.threadId ==> LastSegment(r.value.webhook) == r.value.threadId
    ensures r.Success? ==> |r.value.input| == 1 && r.value.input[0].role == "user"
    ensures r.Success? ==> r.value.input[0].content == Mention.ReplaceMention(cfg.botUserId, e.text.value)
    ensures r.Success? && !Mention.IsMention(cfg.botUserId, e.text.value) ==>
              r.value.input[0].content == e.text.value
    ensures r.Success? && (forall j :: 0 <= j < |cfg.botUserId| ==> cfg.botUserId[j] !in Mention.Placeholder) ==>
              !Mention.IsMention(cfg.botUserId, r.value.input[0].content)
    ensures r.Success? ==> r.value.metadata.channel == e.channel && r.value.metadata.threadTs == e.threadTs
                           && r.value.metadata.eventTs == e.ts && r.value.metadata.channelType == e.channelType
                           && r.value.metadata.botUserId == cfg.botUserId
    ensures r.Success? ==> r.value.metadata.event == "slack" && r.value.metadata.slackEventType == "message"
    ensures r.Success? ==> r.value.assistantId == cfg.assistantId
    ensures r.Success? ==> r.value.multitaskStrategy == "interrupt" && r.value.ifNotExists == "create"
  {
    match e.text
    case None => Failure(MissingKey("text"))
    case Some(text) =>
      var threadId := ThreadId(cfg.uuid5, Anchor(e), e.channel);
      var webhook := WebhookUrl(cfg.deploymentUrl, threadId);
      var content := Mention.ReplaceMention(cfg.botUserId, text);
      RunFacts(cfg, text, threadId);
      var metadata := RunMetadata("slack", "message", cfg.botUserId, e.channel, e.threadTs, e.ts, e.channelType);
      Success(RunRequest(threadId, cfg.assistantId, [InputMessage("user", content)],
                         metadata, "interrupt", "create", webhook))
  }

  /** The facts `BuildRun` rests on, stated for any thread id and text. */
  lemma RunFacts(cfg: Config, text: string, threadId: string)
    ensures '/' !in threadId ==> LastSegment(WebhookUrl(cfg.deploymentUrl, threadId)) == threadId
    ensures !Mention.IsMention(cfg.botUserId, text) ==> Mention.ReplaceMention(cfg.botUserId, text) == text
    ensures (forall j :: 0 <= j < |cfg.botUserId| ==> cfg.botUserId[j] !in Mention.Placeholder) ==>
              !Mention.IsMention(cfg.botUserId, Mention.ReplaceMention(cfg.botUserId, text))
  {
    if '/' !in threadId {
      WebhookNamesThread(cfg.deploymentUrl, threadId);
    }
    if !Mention.IsMention(cfg.botUserId, text) {
      Mention.ReplaceMentionWithoutToken(cfg.botUserId, text);
    }
    MentionGone(cfg.botUserId, text);
  }

  /** With a bot id that shares no character with "assistant", the rewritten
      text holds no mention of the bot. */
  lemma MentionGone(bot: string, text: string)
    ensures (forall j :: 0 <= j < |bot| ==> bot[j] !in Mention.Placeholder) ==>
              !Mention.IsMention(bot, Mention.ReplaceMention(bot, text))
  {
    if forall j :: 0 <= j < |bot| ==> bot[j] !in Mention.Placeholder {
      var tok := Mention.Token(bot);
      forall j | 0 <= j < |tok|
        ensures tok[j] !in Mention.Placeholder
      {
        if 2 <= j < |tok| - 1 {
          assert tok[j] == bot[j - 2];
        }
      }
      Mention.ReplaceAllRemovesToken(text, tok, Mention.Placeholder);
    }
  }

  /** Every message of one conversation is sent to the same backend thread
      with the same webhook: the run depends on the event only through its
      anchor and channel. */
  lemma SameConversationSameThread(cfg: Config, e1: ChatEvent, e2: ChatEvent)
    requires e1.text.Some? && e2.text.Some?
    requires Anchor(e1) == Anchor(e2) && e1.channel == e2.channel
    ensures BuildRun(cfg, e1).value.threadId == BuildRun(cfg, e2).value.threadId
    ensures BuildRun(cfg, e1).value.webhook == BuildRun(cfg, e2).value.webhook
  {
  }

  /** A reply in a thread runs on the thread of the message that started it. */
  lemma ReplyRunsOnRootThread(cfg: Config, root: ChatEvent, reply: ChatEvent)
    requires root.text.Some? && reply.text.Some?
    requires !Truthy(root.threadTs) && root.ts != ""
    requires reply.threadTs == Some(root.ts) && reply.channel == root.channel
    ensures BuildRun(cfg, reply).value.threadId == BuildRun(cfg, root).value.threadId
  {
    ReplyJoinsRootThread(cfg.uuid5, root, reply);
  }
}

=== FILE: events.dfy ===
/** The records that flow through the bridge: inbound Slack message events,
    the backend's callback bodies, the queued tasks, the configuration and the
    errors a task can raise. Optional JSON fields are `Option`s. */
module Events {
  import opened Wrappers

  /** One Slack `message` event (the fields the bridge reads). `text` is
      optional because the event dictionary is indexed with `event["text"]`,
      which raises when the key is absent. */
  datatype ChatEvent = ChatEvent(
    user: Option<string>,
    botId: Option<string>,
    text: Option<string>,
    ts: string,
    threadTs: Option<string>,
    channel: string,
    channelType: Option<string>)

  /** One typed block of a structured message content. */
  datatype Block = Block(kind: Option<string>, text: Option<string>)

  /** A message content: a plain string or a list of typed blocks. */
  datatype Content = Plain(s: string) | Blocks(blocks: seq<Block>)

  /** A message record of the backend's state; only its content is read. */
  datatype Message = Message(content: Content)

  /** The `metadata` object of a callback body (echoed by the backend). */
  datatype CallbackMeta = CallbackMeta(
    channel: Option<string>,
    threadTs: Option<string>,
    eventTs: Option<string>)

  /** The JSON body the backend posts to `/callbacks/{thread_id}`. */
  datatype CallbackPayload = CallbackPayload(
    threadId: string,
    messages: seq<Message>,
    metadata: CallbackMeta)

  /** A queue item. `Sentinel` is any falsy item (`None` or `{}`); `Unknown`
      is a dictionary whose `type` is neither "slack_message" nor "callback". */
  datatype Task =
    | Sentinel
    | SlackMessage(event: ChatEvent)
    | Callback(payload: CallbackPayload)
    | Unknown(kind: string)

  /** The exceptions a task can raise before any request is issued. */
  datatype Error =
    | MissingKey(key: string)      // KeyError
    | EmptyMessages                // IndexError on `messages[-1]`
    | MissingChannel               // no channel in the metadata nor configured
    | UnknownType(kind: string)    // ValueError("Unknown event type")

  /** The process configuration. `uuid5` stands for
      `str(uuid.uuid5(uuid.NAMESPACE_DNS, name))`, an opaque deterministic
      function of its name argument. */
  datatype Config = Config(
    botUserId: string,
    assistantId: string,
    deploymentUrl: Option<string>,
    defaultChannel: Option<string>,
    uuid5: string -> string)
}

=== FILE: markdown.dfy ===
/** `_clean_markdown`: six `re.sub` rewrites applied in a fixed order to turn
    the backend's Markdown into Slack mrkdwn.

    Each rewrite is a left-to-right scan that follows Python's `re.sub`: at
    each position the pattern is tried; a match is replaced and the scan
    resumes right after it, otherwise one character is copied. Anchors and
    lookbehinds read the text the rewrite started from, so the scans carry
    one bit of context: whether the position starts a line (`^` under
    MULTILINE) or follows a '*' (`(?<!\*)`). The emphasis and link patterns
    are built from greedy runs of a negated character class followed by the
    excluded character, so a match at a position is determined by
    `FirstIndex`; the list pattern's `\s*` run is followed by a non-space
    marker, and `BulletAt`'s contract shows that run is unique. */
module Markdown {
  import opened Wrappers
  import opened Strings

  const Fence := "```"
  const Bullet := "\U{2022} "

  /** A match of an emphasis pattern at the head of a text: the captured
      inner text and the length of the whole match. */
  datatype Span = Span(inner: string, len: nat)

  /** A match of the link pattern at the head of a text. */
  datatype Link = Link(linkText: string, url: string, len: nat)

  // ------------------------------------------------------------------
  // Rule 1: ^```[^\n]*\n  ->  ```\n   (MULTILINE)
  // ------------------------------------------------------------------

  /** Length of the fence-line match at the head of `s`, if any. */
  function FenceLineAt(s: string): (n: Option<nat>)
    ensures n.Some? <==> StartsWith(s, Fence) && '\n' in s[3..]
    ensures n.Some? ==> 4 <= n.value <= |s| && s[n.value - 1] == '\n'
    ensures n.Some? ==> forall j :: 3 <= j < n.value - 1 ==> s[j] != '\n'
  {
    if StartsWith(s, Fence) && FirstIndex(s[3..], '\n') < |s| - 3 then
      Some(4 + FirstIndex(s[3..], '\n'))
    else
      None
  }

  /** Drops the language tag of every fence line. The rewrite works inside
      lines: the output has as many line breaks as the input. */
  function DropFenceTags(s: string, lineStart: bool): (r: string)
    ensures multiset(r)['\n'] == multiset(s)['\n']
    ensures '\n' !in s ==> r == s
    ensures '`' !in s ==> r == s
    decreases |s|
  {
    if |s| == 0 then ""
    else
      var m := if lineStart then FenceLineAt(s) else None;
      if m.Some? then
        var n := m.value;
        FenceLineNewlines(s);
        Fence + "\n" + DropFenceTags(s[n..], true)
      else
        assert s == [s[0]] + s[1..];
        [s[0]] + DropFenceTags(s[1..], s[0] == '\n')
  }

  /** A fence line holds exactly one line break, at its end, and starts
      with a backtick. */
  lemma FenceLineNewlines(s: string)
    requires FenceLineAt(s).Some?
    ensures var n := FenceLineAt(s).value;
            multiset(s)['\n'] == 1 + multiset(s[n..])['\n'] && s[0] == '`' && s[n - 1] == '\n'
  {
    var n := FenceLineAt(s).value;
    assert s == s[..3] + s[3..n - 1] + ['\n'] + s[n..];
    assert '\n' !in s[..3] by { assert s[..3] == Fence; }
    assert '\n' !in s[3..n - 1];
    assert s[0] == s[..3][0];
  }

  // ------------------------------------------------------------------
  // Rule 2: \[([^\]]+)\]\(([^)]+)\)  ->  <\2|\1>
  // ------------------------------------------------------------------

  function LinkAt(s: string): (m: Option<Link>)
    ensures m.Some? ==> 5 <= m.value.len <= |s|
    ensures m.Some? ==> s[..m.value.len] == "[" + m.value.linkText + "](" + m.value.url + ")"
    ensures m.Some? ==> |m.value.linkText| > 0 && ']' !in m.value.linkText
    ensures m.Some? ==> |m.value.url| > 0 && ')' !in m.value.url
    ensures |s| == 0 || s[0] != '[' ==> m.None?
  {
    if |s| == 0 || s[0] != '[' then None
    else
      var a := 1 + FirstIndex(s[1..], ']');
      if a == 1 || a + 1 >= |s| || s[a + 1] != '(' then None
      else
        var b := a + 2 + FirstIndex(s[a + 2..], ')');
        if b == a + 2 || b >= |s| then None
        else
          var linkText, url, rest := s[1..a], s[a + 2..b], s[a + 2..];
          assert forall j :: 0 <= j < |linkText| ==> linkText[j] == s[1..][j];
          assert forall j :: 0 <= j < |url| ==> url[j] == rest[j];
          assert s[..b + 1] == "[" + s[1..a] + "](" + s[a + 2..b] + ")";
          Some(Link(s[1..a], s[a + 2..b], b + 1))
  }

  /** Rewrites every `[label](url)` to `<url|label>`. */
  function RewriteLinks(s: string): (r: string)
    ensures '[' !in s ==> r == s
    decreases |s|
  {
    if |s| == 0 then ""
    else
      match LinkAt(s)
      case Some(m) => "<" + m.url + "|" + m.linkText + ">" + RewriteLinks(s[m.len..])
      case None =>
        assert s == [s[0]] + s[1..];
        [s[0]] + RewriteLinks(s[1..])
  }

  // ------------------------------------------------------------------
  // Rule 3: \*\*([^*]+)\*\*  ->  *\1*
  // ------------------------------------------------------------------

  function BoldAt(s: string): (m: Option<Span>)
    ensures m.Some? ==> 5 <= m.value.len <= |s|
    ensures m.Some? ==> s[..m.value.len] == "**" + m.value.inner + "**"
    ensures m.Some? ==> |m.value.inner| > 0 && '*' !in m.value.inner
    ensures !StartsWith(s, "**") ==> m.None?
  {
    if !StartsWith(s, "**") then None
    else
      var j := 2 + FirstIndex(s[2..], '*');
      if j == 2 || j + 1 >= |s| || s[j + 1] != '*' then None
      else
        assert forall k :: 0 <= k < j - 2 ==> s[2..j][k] == s[2..][k];
        assert s[..j + 2] == "**" + s[2..j] + "**";
        Some(Span(s[2..j], j + 2))
  }

  function Bold(s: string): (r: string)
    ensures '*' !in s ==> r == s
    decreases |s|
  {
    if |s| == 0 then ""
    else
      match BoldAt(s)
      case Some(m) => "*" + m.inner + "*" + Bold(s[m.len..])
      case None =>
        assert s == [s[0]] + s[1..];
        [s[0]] + Bold(s[1..])
  }

  // ------------------------------------------------------------------
  // Rule 4: (?<!\*)\*([^*]+)\*(?!\*)  ->  _\1_
  // ------------------------------------------------------------------

  /** The italic match at the head of `s`; `afterStar` is the lookbehind:
      the character before `s` in the text being rewritten is a '*'. */
  function ItalicAt(s: string, afterStar: bool): (m: Option<Span>)
    ensures m.Some? ==> !afterStar && 3 <= m.value.len <= |s|
    ensures m.Some? ==> s[..m.value.len] == "*" + m.value.inner + "*"
    ensures m.Some? ==> |m.value.inner| > 0 && '*' !in m.value.inner
    ensures m.Some? ==> m.value.len == |s| || s[m.value.len] != '*'
    ensures |s| == 0 || s[0] != '*' ==> m.None?
  {
    if afterStar || |s| == 0 || s[0] != '*' then None
    else
      var j := 1 + FirstIndex(s[1..], '*');
      if j == 1 || j >= |s| || (j + 1 < |s| && s[j + 1] == '*') then None
      else
        assert forall k :: 0 <= k < j - 1 ==> s[1..j][k] == s[1..][k];
        assert s[..j + 1] == "*" + s[1..j] + "*";
        Some(Span(s[1..j], j + 1))
  }

  function Italic(s: string, afterStar: bool): (r: string)
    ensures '*' !in s ==> r == s
    decreases |s|
  {
    if |s| == 0 then ""
    else
      match ItalicAt(s, afterStar)
      case Some(m) => "_" + m.inner + "_" + Italic(s[m.len..], true)
      case None =>
        assert s == [s[0]] + s[1..];
        [s[0]] + Italic(s[1..], s[0] == '*')
  }

  // ------------------------------------------------------------------
  // Rule 5: _([^_]+)_  ->  _\1_
  // ------------------------------------------------------------------

  function UnderscoreAt(s: string): (m: Option<Span>)
    ensures m.Some? ==> 3 <= m.value.len <= |s|
    ensures m.Some? ==> s[..m.value.len] == "_" + m.value.inner + "_"
    ensures m.Some? ==> |m.value.inner| > 0 && '_' !in m.value.inner
  {
    if |s| == 0 || s[0] != '_' then None
    else
      var j := 1 + FirstIndex(s[1..], '_');
      if j == 1 || j >= |s| then None
      else
        assert forall k :: 0 <= k < j - 1 ==> s[1..j][k] == s[1..][k];
        assert s[..j + 1] == "_" + s[1..j] + "_";
        Some(Span(s[1..j], j + 1))
  }

  /** The rule rewrites every `_x_` to itself: it never changes the text. */
  function Underscores(s: string): (r: string)
    ensures r == s
    decreases |s|
  {
    if |s| == 0 then ""
    else
      match UnderscoreAt(s)
      case Some(m) =>
        assert s == s[..m.len] + s[m.len..];
        "_" + m.inner + "_" + Underscores(s[m.len..])
      case None =>
        assert s == [s[0]] + s[1..];
        [s[0]] + Underscores(s[1..])
  }

  // ------------------------------------------------------------------
  // Rule 6: ^\s*[-*]\s  ->  "• "   (MULTILINE; \s also matches '\n')
  // ------------------------------------------------------------------

  /** `\s*[-*]\s` matches at the head of `s` with a whitespace run of
      length `k` before the marker. */
  predicate ListMarkerAt(s: string, k: int) {
    0 <= k && k + 1 < |s| && (forall j :: 0 <= j < k ==> IsSpace(s[j]))
    && s[k] in "-*" && IsSpace(s[k + 1])
  }

  /** Length of the list-marker match at the head of `s`, if any. The
      pattern matches exactly when some whitespace run is followed by a
      marker and a whitespace character, and that run is unique, so the
      match length is determined. */
  function BulletAt(s: string): (n: Option<nat>)
    ensures n.Some? ==> 2 <= n.value <= |s|
    ensures n.Some? <==> exists k :: ListMarkerAt(s, k)
    ensures forall k :: ListMarkerAt(s, k) ==> n == Some(k + 2)
  {
    var w := SpaceRun(s);
    MarkerRunIsSpaceRun(s);
    if w + 1 < |s| && (s[w] == '-' || s[w] == '*') && IsSpace(s[w + 1]) then
      assert ListMarkerAt(s, w);
      Some(w + 2)
    else None
  }

  /** The only whitespace run a list marker can follow is the greedy one. */
  lemma MarkerRunIsSpaceRun(s: string)
    ensures forall k :: ListMarkerAt(s, k) ==> k == SpaceRun(s)
  {
    var w := SpaceRun(s);
    forall k | ListMarkerAt(s, k)
      ensures k == w
    {
      assert !IsSpace(s[k]);
      assert w < |s| ==> !IsSpace(s[w]);
    }
  }

  function Bullets(s: string, lineStart: bool): (r: string)
    ensures '-' !in s && '*' !in s ==> r == s
    decreases |s|
  {
    if |s| == 0 then ""
    else
      var m := if lineStart then BulletAt(s) else None;
      if m.Some? then
        var n := m.value;
        Bullet + Bullets(s[n..], s[n - 1] == '\n')
      else
        assert s == [s[0]] + s[1..];
        [s[0]] + Bullets(s[1..], s[0] == '\n')
  }

  // ------------------------------------------------------------------
  // The pipeline, in the order of the source
  // ------------------------------------------------------------------

  function CleanMarkdown(text: string): (r: string)
    ensures '\n' !in text && '[' !in text && '*' !in text && '-' !in text ==> r == text
  {
    var t1 := DropFenceTags(text, true);
    var t2 := RewriteLinks(t1);
    var t3 := Bold(t2);
    var t4 := Italic(t3, false);
    var t5 := Underscores(t4);
    Bullets(t5, true)
  }

  // ------------------------------------------------------------------
  // What each rule does at a match
  // ------------------------------------------------------------------

  /** A fence line with a language tag becomes a bare fence line. */
  lemma FenceTagDropped(tag: string, rest: string)
    requires '\n' !in tag
    ensures DropFenceTags(Fence + tag + "\n" + rest, true) == Fence + "\n" + DropFenceTags(rest, true)
  {
    var s := Fence + tag + "\n" + rest;
    assert s[..3] == Fence;
    assert s[3..] == tag + ['\n'] + rest;
    FirstIndexAt(tag, '\n', rest);
    assert s[4 + |tag|..] == rest;
  }

  /** `[text](url)` becomes `<url|text>` and the scan resumes after it. */
  lemma LinkRewritten(linkText: string, url: string, rest: string)
    requires |linkText| > 0 && ']' !in linkText
    requires |url| > 0 && ')' !in url
    ensures RewriteLinks("[" + linkText + "](" + url + ")" + rest)
         == "<" + url + "|" + linkText + ">" + RewriteLinks(rest)
  {
    LinkMatched(linkText, url, rest);
  }

  /** The link pattern matches `[text](url)` at the head of a text. */
  lemma LinkMatched(linkText: string, url: string, rest: string)
    requires |linkText| > 0 && ']' !in linkText
    requires |url| > 0 && ')' !in url
    ensures var s := "[" + linkText + "](" + url + ")" + rest;
            var n := |linkText| + |url| + 4;
            n <= |s| && LinkAt(s) == Some(Link(linkText, url, n)) && s[n..] == rest
  {
    var s := "[" + linkText + "](" + url + ")" + rest;
    var a := 1 + |linkText|;
    var b := a + 2 + |url|;
    LinkShape(linkText, url, rest);
    FirstIndexAt(linkText, ']', "(" + url + ")" + rest);
    FirstIndexAt(url, ')', rest);
  }

  /** `**x**` becomes `*x*` under the bold rule. */
  lemma BoldHead(x: string, rest: string)
    requires |x| > 0 && '*' !in x
    ensures Bold("**" + x + "**" + rest) == "*" + x + "*" + Bold(rest)
  {
    var s := "**" + x + "**" + rest;
    assert s[..2] == "**";
    assert s[2..] == x + ['*'] + ("*" + rest);
    FirstIndexAt(x, '*', "*" + rest);
    var j := 2 + |x|;
    assert s[2..j] == x && s[j + 1] == '*' && s[j + 2..] == rest;
    assert BoldAt(s) == Some(Span(x, j + 2));
  }

  /** A lone `*x*` not followed by another '*' becomes `_x_` under the
      italic rule. */
  lemma ItalicHead(x: string, rest: string)
    requires |x| > 0 && '*' !in x
    requires |rest| == 0 || rest[0] != '*'
    ensures Italic("*" + x + "*" + rest, false) == "_" + x + "_" + Italic(rest, true)
  {
    var s := "*" + x + "*" + rest;
    assert s[1..] == x + ['*'] + rest;
    FirstIndexAt(x, '*', rest);
    var j := 1 + |x|;
    assert s[1..j] == x && s[j + 1..] == rest;
    assert ItalicAt(s, false) == Some(Span(x, j + 1));
  }

  /** The whitespace run at the head of `ws + t` is `ws` when `t` does not
      start with whitespace. */
  lemma SpaceRunAt(ws: string, t: string)
    requires forall j :: 0 <= j < |ws| ==> IsSpace(ws[j])
    requires |t| > 0 && !IsSpace(t[0])
    ensures SpaceRun(ws + t) == |ws|
  {
    var s := ws + t;
    assert forall j :: 0 <= j < |ws| ==> s[j] == ws[j];
    assert s[|ws|] == t[0];
  }

  /** At a line start, optional whitespace, a '-' or '*' and one whitespace
      character become the bullet "• ". */
  lemma BulletHead(ws: string, marker: char, space: char, rest: string)
    requires forall j :: 0 <= j < |ws| ==> IsSpace(ws[j])
    requires marker == '-' || marker == '*'
    requires IsSpace(space)
    ensures Bullets(ws + [marker, space] + rest, true) == Bullet + Bullets(rest, space == '\n')
  {
    var s := ws + [marker, space] + rest;
    assert s == ws + ([marker, space] + rest);
    SpaceRunAt(ws, [marker, space] + rest);
    assert s[|ws|] == marker && s[|ws| + 1] == space;
    assert s[|ws| + 2..] == rest;
  }

  // ------------------------------------------------------------------
  // Stretches a rule leaves alone
  // ------------------------------------------------------------------

  lemma {:induction false} BoldCopies(p: string, rest: string)
    requires '*' !in p
    ensures Bold(p + rest) == p + Bold(rest)
    decreases |p|
  {
    if |p| > 0 {
      SplitHead(p, rest);
      BoldStepChar(p + rest);
      BoldCopies(p[1..], rest);
      Assoc([p[0]], p[1..], Bold(rest));
    } else {
      AppendEmpty(rest);
    }
  }

  /** A character other than '*' opens no bold match and is copied. */
  lemma BoldStepChar(s: string)
    requires |s| > 0 && s[0] != '*'
    ensures Bold(s) == [s[0]] + Bold(s[1..])
  {
    assert !StartsWith(s, "**") by { assert |s| < 2 || s[..2][0] == s[0]; }
    BoldStep(s);
  }

  /** A character other than '*' is copied and clears the lookbehind. */
  lemma ItalicStep(s: string, afterStar: bool)
    requires |s| > 0 && s[0] != '*'
    ensures Italic(s, afterStar) == [s[0]] + Italic(s[1..], false)
  {
  }

  lemma {:induction false} ItalicCopies(p: string, rest: string, afterStar: bool)
    requires |p| > 0 && '*' !in p
    ensures Italic(p + rest, afterStar) == p + Italic(rest, false)
    decreases |p|
  {
    var s := p + rest;
    assert s[0] == p[0] && s[1..] == p[1..] + rest;
    ItalicStep(s, afterStar);
    if |p| > 1 {
      ItalicCopies(p[1..], rest, false);
    } else {
      assert p[1..] == [];
      AppendEmpty(rest);
    }
    assert p == [p[0]] + p[1..];
    Assoc([p[0]], p[1..], Italic(rest, false));
  }

  lemma {:induction false} BulletsCopies(p: string, rest: string)
    requires '\n' !in p
    ensures Bullets(p + rest, false) == p + Bullets(rest, false)
    decreases |p|
  {
    if |p| > 0 {
      var s := p + rest;
      assert s[0] == p[0] && s[1..] == p[1..] + rest;
      BulletsCopies(p[1..], rest);
      assert p == [p[0]] + p[1..];
    } else {
      assert p + rest == rest;
    }
  }

  /** A single line that does not open with a list marker is left alone. */
  lemma BulletsPlainLine(s: string)
    requires '\n' !in s
    requires BulletAt(s).None?
    ensures Bullets(s, true) == s
  {
    if |s| > 0 {
      BulletsCopies(s[1..], "");
      assert s[1..] + "" == s[1..];
      assert s == [s[0]] + s[1..];
    }
  }

  /** A line made of `p` followed by a text opening with `c` has no list
      marker at its head, when `p` has neither marker, `c` is not whitespace,
      and `c` is not a marker or is not followed by whitespace. */
  lemma NoBulletAt(p: string, c: char, tail: string)
    requires '-' !in p && '*' !in p
    requires !IsSpace(c)
    requires (c != '-' && c != '*') || (|tail| > 0 && !IsSpace(tail[0]))
    ensures BulletAt(p + [c] + tail).None?
  {
    var s := p + [c] + tail;
    var w := SpaceRun(s);
    assert s[|p|] == c;
    assert w <= |p|;
    if w < |p| {
      assert s[w] == p[w];
    } else if |tail| > 0 {
      assert s[w + 1] == tail[0];
    }
  }

  lemma BoldStep(s: string)
    requires |s| > 0 && !StartsWith(s, "**")
    ensures Bold(s) == [s[0]] + Bold(s[1..])
  {
  }

  lemma BulletsStep(s: string)
    requires |s| > 0
    ensures Bullets(s, false) == [s[0]] + Bullets(s[1..], s[0] == '\n')
  {
  }

  /** Where no italic match starts, one character is copied and becomes
      the lookbehind. */
  lemma ItalicNoMatch(s: string, afterStar: bool)
    requires |s| > 0 && ItalicAt(s, afterStar).None?
    ensures Italic(s, afterStar) == [s[0]] + Italic(s[1..], s[0] == '*')
  {
  }

  /** A "**" is copied by the italic rule: its first star fails the
      `[^*]+` run and its second fails the lookbehind. */
  lemma ItalicSkipsPair(rest: string, afterStar: bool)
    ensures Italic("**" + rest, afterStar) == "**" + Italic(rest, true)
  {
    var s := "**" + rest;
    var s1 := "*" + rest;
    PairShape(rest);
    assert ItalicAt(s, afterStar).None? by {
      assert FirstIndex(s[1..], '*') == 0;
    }
    ItalicNoMatch(s, afterStar);
    ItalicNoMatch(s1, true);
    Assoc(['*'], ['*'], Italic(rest, true));
  }

  /** A lone `*x*` becomes `_x_` under the italic rule. */
  lemma ItalicLone(x: string)
    requires |x| > 0 && '*' !in x
    ensures Italic("*" + x + "*", false) == "_" + x + "_"
  {
    ItalicHead(x, "");
    assert "*" + x + "*" + "" == "*" + x + "*";
    assert "_" + x + "_" + "" == "_" + x + "_";
  }

  /** `p*x*` becomes `p_x_` under the italic rule. */
  lemma ItalicAfter(p: string, x: string)
    requires '*' !in p
    requires |x| > 0 && '*' !in x
    ensures Italic(p + ("*" + x + "*"), false) == p + ("_" + x + "_")
  {
    ItalicLone(x);
    if |p| > 0 {
      ItalicCopies(p, "*" + x + "*", false);
    } else {
      assert p == [];
      AppendEmpty("*" + x + "*");
      AppendEmpty("_" + x + "_");
    }
  }

  /** `p**x**` becomes `p*x*` under the bold rule. */
  lemma BoldAfter(p: string, x: string)
    requires '*' !in p
    requires |x| > 0 && '*' !in x
    ensures Bold(p + ("**" + x + "**")) == p + ("*" + x + "*")
  {
    BoldHead(x, "");
    assert "**" + x + "**" + "" == "**" + x + "**";
    assert "*" + x + "*" + "" == "*" + x + "*";
    BoldCopies(p, "**" + x + "**");
  }

  /** A '*' followed by a star-free `y` that does not open with '*' is
      left alone by the bold rule. */
  lemma BoldSkipsLoneStar(y: string, rest: string)
    requires |y| > 0 && '*' !in y
    ensures Bold("*" + y + rest) == "*" + y + Bold(rest)
  {
    BoldStarThen(y, rest);
    BoldCopies(y, rest);
    Assoc("*", y, Bold(rest));
  }

  lemma BoldStarThen(y: string, rest: string)
    requires |y| > 0 && '*' !in y
    ensures Bold("*" + y + rest) == "*" + Bold(y + rest)
  {
    var s := "*" + y + rest;
    assert s[1..] == y + rest;
    assert s[1] == y[0];
    BoldSkipsStar(s);
  }

  /** A star not followed by another star is copied by the bold rule. */
  lemma BoldSkipsStar(s: string)
    requires |s| >= 2 && s[1] != '*'
    ensures Bold(s) == [s[0]] + Bold(s[1..])
  {
    assert s[..2][1] == s[1];
    BoldStep(s);
  }

  /** A lone `*x*` is left alone by the bold rule. */
  lemma BoldLone(x: string)
    requires |x| > 0 && '*' !in x
    ensures Bold("*" + x + "*") == "*" + x + "*"
  {
    BoldSkipsLoneStar(x, "*");
    assert Bold("*") == "*";
  }

  /** `p*x*` is left alone by the bold rule. */
  lemma BoldKeepsLone(p: string, x: string)
    requires '*' !in p
    requires |x| > 0 && '*' !in x
    ensures Bold(p + ("*" + x + "*")) == p + ("*" + x + "*")
  {
    BoldLone(x);
    BoldCopies(p, "*" + x + "*");
  }

  /** A one-line `p_x_` has no list marker to rewrite. */
  lemma BulletsKeepUnderscored(p: string, x: string)
    requires '-' !in p && '*' !in p && '\n' !in p && '\n' !in x
    ensures Bullets(p + ("_" + x + "_"), true) == p + ("_" + x + "_")
  {
    var t := p + ("_" + x + "_");
    assert t == p + ['_'] + (x + "_");
    NoBulletAt(p, '_', x + "_");
    assert '\n' !in t;
    BulletsPlainLine(t);
  }

  // ------------------------------------------------------------------
  // Rule order, as written: emphasis ends up as Slack italics
  // ------------------------------------------------------------------

  /** `p**x**` is posted as `p_x_`: the bold rule's output `*x*` is caught by
      the italic rule that runs after it. */
  lemma BoldRendersAsItalic(p: string, x: string)
    requires '*' !in p && '[' !in p && '\n' !in p && '-' !in p
    requires |x| > 0 && '*' !in x && '[' !in x && '\n' !in x
    ensures CleanMarkdown(p + ("**" + x + "**")) == p + ("_" + x + "_")
  {
    var s := p + ("**" + x + "**");
    assert DropFenceTags(s, true) == s by { assert '\n' !in s; }
    assert RewriteLinks(s) == s by { assert '[' !in s; }
    BoldAfter(p, x);
    ItalicAfter(p, x);
    BulletsKeepUnderscored(p, x);
  }

  /** `p*x*` is posted as `p_x_`. */
  lemma ItalicRendersAsUnderscore(p: string, x: string)
    requires '*' !in p && '[' !in p && '\n' !in p && '-' !in p
    requires |x| > 0 && '*' !in x && '[' !in x && '\n' !in x
    ensures CleanMarkdown(p + ("*" + x + "*")) == p + ("_" + x + "_")
  {
    var s := p + ("*" + x + "*");
    assert DropFenceTags(s, true) == s by { assert '\n' !in s; }
    assert RewriteLinks(s) == s by { assert '[' !in s; }
    BoldKeepsLone(p, x);
    ItalicAfter(p, x);
    BulletsKeepUnderscored(p, x);
  }

  /** A list of two '*' items is posted as italics: the italic rule pairs the
      first item's marker with the second's, so the list rule never sees
      them. */
  lemma StarListRendersAsItalic(a: string, b: string)
    requires '*' !in a && '\n' !in a && '[' !in a && '`' !in a && '-' !in a
    requires '*' !in b && '\n' !in b && '[' !in b && '`' !in b && '-' !in b
    ensures CleanMarkdown("* " + a + "\n* " + b) == "_ " + a + "\n_ " + b
  {
    StarListMarkers(a, b);
    StarListLeadIn(a, b);
    StarListKeptByBold(a, b);
    StarListItalicised(a, b);
  }

  /** The fence and link rules leave a two-item list without '`' or '['
      alone. */
  lemma StarListLeadIn(a: string, b: string)
    requires '[' !in a && '`' !in a && '[' !in b && '`' !in b
    ensures RewriteLinks(DropFenceTags("* " + a + "\n* " + b, true)) == "* " + a + "\n* " + b
  {
    NotInStarList(a, b, '`');
    NotInStarList(a, b, '[');
  }

  lemma StarListKeptByBold(a: string, b: string)
    requires '*' !in a && '\n' !in a && '*' !in b
    ensures Bold("* " + a + "\n* " + b) == "* " + a + "\n* " + b
  {
    var line1 := " " + a + "\n";
    var line2 := " " + b;
    var second := "*" + line2;
    StarListShape(a, b);
    assert Bold(second) == second by {
      BoldSkipsLoneStar(line2, []);
      AppendEmpty(second);
    }
    BoldSkipsLoneStar(line1, second);
  }

  lemma StarListItalicised(a: string, b: string)
    requires '*' !in a && '\n' !in a && '*' !in b
    ensures Italic("* " + a + "\n* " + b, false) == "_ " + a + "\n_ " + b
  {
    var line1 := " " + a + "\n";
    var line2 := " " + b;
    StarListShape(a, b);
    ItalicHead(line1, line2);
    assert Italic(line2, true) == line2;
  }

  // ------------------------------------------------------------------
  // The evidently intended order
  // ------------------------------------------------------------------

  /** The converter with list markers rewritten before emphasis and italics
      before bold, the order under which `**x**` stays bold and `* item`
      lists become bullets. The identity rule is dropped. */
  function CleanMarkdownIntended(text: string): (r: string)
    ensures '\n' !in text && '[' !in text && '*' !in text && '-' !in text ==> r == text
  {
    var t1 := DropFenceTags(text, true);
    var t2 := RewriteLinks(t1);
    var t3 := Bullets(t2, true);
    var t4 := Italic(t3, false);
    Bold(t4)
  }

  /** A lone `**x**` is left alone by the italic rule. */
  lemma ItalicPairLone(x: string)
    requires |x| > 0 && '*' !in x
    ensures Italic("**" + x + "**", false) == "**" + x + "**"
  {
    assert "**" + x + "**" == "**" + (x + "**");
    ItalicSkipsPair(x + "**", false);
    ItalicCopies(x, "**", true);
    ItalicSkipsPair([], false);
    AppendEmpty("**");
  }

  /** `p**x**` is left alone by the italic rule. */
  lemma ItalicKeepsPair(p: string, x: string)
    requires '*' !in p
    requires |x| > 0 && '*' !in x
    ensures Italic(p + ("**" + x + "**"), false) == p + ("**" + x + "**")
  {
    ItalicPairLone(x);
    if |p| > 0 {
      ItalicCopies(p, "**" + x + "**", false);
    } else {
      AppendEmpty("**" + x + "**");
    }
  }

  /** A line opening with optional text and then `*` followed by a
      non-space has no list marker. */
  lemma BulletsKeepStarred(p: string, tail: string)
    requires '-' !in p && '*' !in p && '\n' !in p && '\n' !in tail
    requires |tail| > 0 && !IsSpace(tail[0])
    ensures Bullets(p + ("*" + tail), true) == p + ("*" + tail)
  {
    var t := p + ("*" + tail);
    assert t == p + ['*'] + tail;
    NoBulletAt(p, '*', tail);
    assert '\n' !in t;
    BulletsPlainLine(t);
  }

  /** Under the intended order `p**x**` is posted as Slack bold `p*x*`. */
  lemma IntendedBoldStaysBold(p: string, x: string)
    requires '*' !in p && '[' !in p && '\n' !in p && '-' !in p
    requires |x| > 0 && '*' !in x && '[' !in x && '\n' !in x
    ensures CleanMarkdownIntended(p + ("**" + x + "**")) == p + ("*" + x + "*")
  {
    PairLeadIn(p, x);
    BulletsKeepPair(p, x);
    ItalicKeepsPair(p, x);
    BoldAfter(p, x);
  }

  /** The fence and link rules leave a one-line `p**x**` alone. */
  lemma PairLeadIn(p: string, x: string)
    requires '[' !in p && '\n' !in p && '[' !in x && '\n' !in x
    ensures RewriteLinks(DropFenceTags(p + ("**" + x + "**"), true)) == p + ("**" + x + "**")
  {
    var s := p + ("**" + x + "**");
    assert '\n' !in s && '[' !in s;
  }

  /** A one-line `p**x**` has no list marker to rewrite. */
  lemma BulletsKeepPair(p: string, x: string)
    requires '-' !in p && '*' !in p && '\n' !in p && '\n' !in x
    ensures Bullets(p + ("**" + x + "**"), true) == p + ("**" + x + "**")
  {
    assert "*" + ("*" + x + "**") == "**" + x + "**";
    BulletsKeepStarred(p, "*" + x + "**");
  }

  /** Under the intended order `p*x*` is still posted as `p_x_`. */
  lemma IntendedItalic(p: string, x: string)
    requires '*' !in p && '[' !in p && '\n' !in p && '-' !in p
    requires |x| > 0 && '*' !in x && '[' !in x && '\n' !in x && !IsSpace(x[0])
    ensures CleanMarkdownIntended(p + ("*" + x + "*")) == p + ("_" + x + "_")
  {
    LoneLeadIn(p, x);
    BulletsKeepLone(p, x);
    ItalicAfter(p, x);
    UnderscoredStarFree(p, x);
  }

  /** The fence and link rules leave a one-line `p*x*` alone. */
  lemma LoneLeadIn(p: string, x: string)
    requires '[' !in p && '\n' !in p && '[' !in x && '\n' !in x
    ensures RewriteLinks(DropFenceTags(p + ("*" + x + "*"), true)) == p + ("*" + x + "*")
  {
    var s := p + ("*" + x + "*");
    assert '\n' !in s && '[' !in s;
  }

  /** A one-line `p*x*` with `x` opening on a non-space has no list marker. */
  lemma BulletsKeepLone(p: string, x: string)
    requires '-' !in p && '*' !in p && '\n' !in p && '\n' !in x
    requires |x| > 0 && !IsSpace(x[0])
    ensures Bullets(p + ("*" + x + "*"), true) == p + ("*" + x + "*")
  {
    assert "*" + (x + "*") == "*" + x + "*";
    assert (x + "*")[0] == x[0];
    BulletsKeepStarred(p, x + "*");
  }

  /** The bold rule has nothing to do on `p_x_`. */
  lemma UnderscoredStarFree(p: string, x: string)
    requires '*' !in p && '*' !in x
    ensures Bold(p + ("_" + x + "_")) == p + ("_" + x + "_")
  {
    assert '*' !in p + ("_" + x + "_");
  }

  /** At a line start, "* a" followed by a new line becomes a bullet. */
  lemma BulletsStarItem(a: string, rest: string)
    requires '\n' !in a
    ensures Bullets("* " + a + rest, true) == Bullet + a + Bullets(rest, false)
  {
    assert "* " + a + rest == [] + ['*', ' '] + (a + rest);
    BulletHead([], '*', ' ', a + rest);
    BulletsCopies(a, rest);
    Assoc(Bullet, a, Bullets(rest, false));
  }

  /** The list rule turns "* a\n* b" into two bullets. */
  lemma BulletsStarList(a: string, b: string)
    requires '\n' !in a && '\n' !in b
    ensures Bullets("* " + a + "\n* " + b, true) == Bullet + a + "\n" + Bullet + b
  {
    var second := "* " + b + [];
    BulletsStarListShape(a, b);
    BulletsStarItem(a, "\n" + second);
    assert ("\n" + second)[1..] == second;
    BulletsStep("\n" + second);
    BulletsStarItem(b, []);
  }

  /** Under the intended order a list of two '*' items becomes two bullets. */
  lemma IntendedStarListBecomesBullets(a: string, b: string)
    requires '*' !in a && '\n' !in a && '[' !in a && '`' !in a && '-' !in a
    requires '*' !in b && '\n' !in b && '[' !in b && '`' !in b && '-' !in b
    ensures CleanMarkdownIntended("* " + a + "\n* " + b) == Bullet + a + "\n" + Bullet + b
  {
    StarListMarkers(a, b);
    StarListLeadIn(a, b);
    BulletsStarList(a, b);
  }

  // ------------------------------------------------------------------
  // Concatenation shapes. These state facts about how the literal pieces of
  // a text are grouped and what they contain. They are kept apart from the
  // lemmas about the rewrites so that the solver does not reason about
  // sequence equality and the recursive scans at the same time; they carry
  // no behaviour of the converter.
  // ------------------------------------------------------------------

  /** Where the pieces of `[text](url)` sit. */
  lemma LinkShape(linkText: string, url: string, rest: string)
    ensures var s := "[" + linkText + "](" + url + ")" + rest;
            var a := 1 + |linkText|;
            var b := a + 2 + |url|;
            && |s| == b + 1 + |rest|
            && s[0] == '[' && s[a + 1] == '('
            && s[1..] == linkText + [']'] + ("(" + url + ")" + rest)
            && s[a + 2..] == url + [')'] + rest
            && s[1..a] == linkText && s[a + 2..b] == url && s[b + 1..] == rest
  {
  }

  lemma PairShape(rest: string)
    ensures ("**" + rest)[0] == '*' && ("**" + rest)[1..] == "*" + rest
    ensures ("*" + rest)[0] == '*' && ("*" + rest)[1..] == rest
    ensures ['*'] + ['*'] == "**"
  {
  }

  /** Which markers the rewritten two-item lists still hold. */
  lemma StarListMarkers(a: string, b: string)
    requires '*' !in a && '-' !in a && '*' !in b && '-' !in b
    ensures '-' !in "_ " + a + "\n_ " + b && '*' !in "_ " + a + "\n_ " + b
    ensures '*' !in Bullet + a + "\n" + Bullet + b
  {
  }

  lemma NotInStarList(a: string, b: string, c: char)
    requires c !in a && c !in b && c != '*' && c != ' ' && c != '\n'
    ensures c !in "* " + a + "\n* " + b
  {
  }

  /** The shapes of a two-item list the proofs below regroup into. */
  lemma StarListShape(a: string, b: string)
    ensures "* " + a + "\n* " + b == "*" + (" " + a + "\n") + ("*" + (" " + b))
    ensures "* " + a + "\n* " + b == "*" + (" " + a + "\n") + "*" + (" " + b)
    ensures "_ " + a + "\n_ " + b == "_" + (" " + a + "\n") + "_" + (" " + b)
  {
  }

  lemma BulletsStarListShape(a: string, b: string)
    ensures "* " + a + "\n* " + b == "* " + a + ("\n" + ("* " + b + []))
    ensures Bullet + a + ("\n" + (Bullet + b + [])) == Bullet + a + "\n" + Bullet + b
  {
  }
}

=== FILE: mention.dfy ===
/** The bot-mention token and its replacement: `_is_mention` searches the
    event text for `<@BOT_USER_ID>`, `_replace_mention` rewrites every
    non-overlapping occurrence, scanning left to right, to "assistant". */
module Mention {
  import opened Strings

  const Placeholder := "assistant"

  /** The literal `<@BOT>` token that addresses the bot. */
  function Token(bot: string): (t: string)
    ensures |t| == |bot| + 3 && t[0] == '<' && t[1] == '@' && t[|t| - 1] == '>'
    ensures t[2..|t| - 1] == bot
  {
    "<@" + bot + ">"
  }

  /** The event text addresses the bot. */
  predicate IsMention(bot: string, text: string) {
    Occurs(text, Token(bot))
  }

  /** `re.sub` with a literal, non-empty pattern: the leftmost occurrence is
      replaced and the scan resumes after it. */
  function ReplaceAll(s: string, tok: string, repl: string): (r: string)
    requires |tok| > 0
    ensures !Occurs(s, tok) ==> r == s
    decreases |s|
  {
    if |s| == 0 then ""
    else if StartsWith(s, tok) then
      assert s[0..] == s;
      repl + ReplaceAll(s[|tok|..], tok, repl)
    else
      OccursInTail(s, tok);
      [s[0]] + ReplaceAll(s[1..], tok, repl)
  }

  /** The content sent to the backend for an event text. */
  function ReplaceMention(bot: string, text: string): (r: string)
    ensures !IsMention(bot, text) ==> r == text
  {
    ReplaceAll(text, Token(bot), Placeholder)
  }

  /** An occurrence at the head of the text is replaced and the scan resumes
      right after it. */
  lemma ReplaceAllHead(tok: string, repl: string, rest: string)
    requires |tok| > 0
    ensures ReplaceAll(tok + rest, tok, repl) == repl + ReplaceAll(rest, tok, repl)
  {
    assert (tok + rest)[..|tok|] == tok;
    assert (tok + rest)[|tok|..] == rest;
  }

  /** A prefix of the output that holds no character of the replacement
      text is a prefix of the input: no replacement happened inside it. */
  lemma {:induction false} PrefixBeforeReplacement(t: string, tok: string, repl: string, m: nat)
    requires |tok| > 0 && |repl| > 0
    requires m <= |ReplaceAll(t, tok, repl)|
    requires forall j :: 0 <= j < m ==> ReplaceAll(t, tok, repl)[j] !in repl
    ensures m <= |t| && ReplaceAll(t, tok, repl)[..m] == t[..m]
    decreases |t|
  {
    var r := ReplaceAll(t, tok, repl);
    if m > 0 {
      assert r[0] !in repl;
      var r' := ReplaceAll(t[1..], tok, repl);
      assert r == [t[0]] + r';
      forall j | 0 <= j < m - 1
        ensures r'[j] !in repl
      {
        assert r'[j] == r[j + 1];
      }
      PrefixBeforeReplacement(t[1..], tok, repl, m - 1);
      assert r[..m] == [t[0]] + r'[..m - 1];
      assert t[..m] == [t[0]] + t[1..][..m - 1];
    }
  }

  /** An occurrence of the token at the head of the output starts at the head
      of the input as well, when the token and the replacement share no
      character. */
  lemma HeadOccurrence(s: string, tok: string, repl: string)
    requires |s| > 0 && |tok| > 0 && |repl| > 0
    requires forall j :: 0 <= j < |tok| ==> tok[j] !in repl
    ensures StartsWith([s[0]] + ReplaceAll(s[1..], tok, repl), tok) ==> StartsWith(s, tok)
  {
    var r' := ReplaceAll(s[1..], tok, repl);
    if StartsWith([s[0]] + r', tok) {
      TokenTail(s[0], r', tok, repl);
      PrefixBeforeReplacement(s[1..], tok, repl, |tok| - 1);
      HeadFromTail(s, tok);
    }
  }

  /** A token at the head of `[c] + t`: `c` is its first character and the
      rest of it, which avoids the replacement, opens `t`. */
  lemma TokenTail(c: char, t: string, tok: string, repl: string)
    requires |tok| > 0 && StartsWith([c] + t, tok)
    requires forall j :: 0 <= j < |tok| ==> tok[j] !in repl
    ensures |tok| - 1 <= |t| && c == tok[0] && t[..|tok| - 1] == tok[1..]
    ensures forall j :: 0 <= j < |tok| - 1 ==> t[j] !in repl
  {
    var r := [c] + t;
    assert r[0] == tok[0];
    forall j | 0 <= j < |tok| - 1
      ensures t[j] == tok[j + 1]
    {
      assert t[j] == r[j + 1];
    }
  }

  lemma HeadFromTail(s: string, tok: string)
    requires |s| > 0 && 0 < |tok| <= |s| && s[0] == tok[0]
    requires s[1..][..|tok| - 1] == tok[1..]
    ensures StartsWith(s, tok)
  {
    forall j | 0 <= j < |tok|
      ensures s[j] == tok[j]
    {
      if j > 0 {
        assert s[j] == s[1..][..|tok| - 1][j - 1];
      }
    }
  }

  /** When no character of the token appears in the replacement, the output
      contains no occurrence of the token. */
  lemma {:induction false} ReplaceAllRemovesToken(s: string, tok: string, repl: string)
    requires |tok| > 0 && |repl| > 0
    requires forall j :: 0 <= j < |tok| ==> tok[j] !in repl
    ensures !Occurs(ReplaceAll(s, tok, repl), tok)
    decreases |s|
  {
    if |s| == 0 {
    } else if StartsWith(s, tok) {
      ReplaceAllRemovesToken(s[|tok|..], tok, repl);
      assert tok[0] !in repl;
      NoOccurrenceAfter(repl, ReplaceAll(s[|tok|..], tok, repl), tok);
    } else {
      ReplaceAllRemovesToken(s[1..], tok, repl);
      HeadOccurrence(s, tok, repl);
      NoOccurrenceAfter([s[0]], ReplaceAll(s[1..], tok, repl), tok);
    }
  }

  /** A prefix in which the token cannot start, followed by a text without
      the token, holds the token at most at its very head. */
  lemma NoOccurrenceAfter(pre: string, r: string, tok: string)
    requires |tok| > 0 && !Occurs(r, tok)
    requires |pre| > 1 ==> tok[0] !in pre
    requires !StartsWith(pre + r, tok)
    ensures !Occurs(pre + r, tok)
  {
    var t := pre + r;
    forall i | 0 <= i <= |t|
      ensures !StartsWith(t[i..], tok)
    {
      if 0 < i < |pre| {
        assert t[i..][0] == pre[i];
      } else if i >= |pre| {
        assert t[i..] == r[i - |pre|..];
      }
    }
  }

  /** Stripping the mention twice is stripping it once, provided the bot id
      shares no character with "assistant" (Slack ids are upper-case letters
      and digits). */
  lemma ReplaceMentionIdempotent(bot: string, text: string)
    requires forall j :: 0 <= j < |bot| ==> bot[j] !in Placeholder
    ensures ReplaceMention(bot, ReplaceMention(bot, text)) == ReplaceMention(bot, text)
  {
    var tok := Token(bot);
    forall j | 0 <= j < |tok|
      ensures tok[j] !in Placeholder
    {
      if 2 <= j < |tok| - 1 {
        assert tok[j] == bot[j - 2];
      }
    }
    ReplaceAllRemovesToken(text, tok, Placeholder);
  }

  /** Without that proviso stripping is not idempotent: when the bot id is
      "assistant", a second pass changes "<@<@assistant>>" again. */
  lemma ReplaceMentionNotIdempotentInGeneral(bot: string)
    requires bot == Placeholder
    ensures var once := ReplaceMention(bot, "<@" + Token(bot) + ">");
            ReplaceMention(bot, once) != once
  {
    StrippingRebuildsToken(bot);
    StrippingToken(bot);
  }

  /** One pass over "<@" + token + ">" leaves the token itself, when the bot
      id is the replacement text. */
  lemma StrippingRebuildsToken(bot: string)
    requires bot == Placeholder
    ensures ReplaceMention(bot, "<@" + Token(bot) + ">") == Token(bot)
  {
    var tok := Token(bot);
    var s0 := "<@" + tok + ">";
    WrappedTokenShape(bot);
    ReplaceAllSkip('<', ['@'] + (tok + ">"), tok, bot);
    ReplaceAllSkip('@', tok + ">", tok, bot);
    ReplaceAllHead(tok, bot, ">");
    NotOccursWithoutHead(">", tok);
  }

  /** How "<@" + token + ">" decomposes when the bot id is the replacement
      text: no occurrence starts at its first two characters. */
  lemma WrappedTokenShape(bot: string)
    requires bot == Placeholder
    ensures var tok := Token(bot);
            var s0 := "<@" + tok + ">";
            && s0 == ['<'] + (['@'] + (tok + ">"))
            && !StartsWith(s0, tok)
            && !StartsWith(['@'] + (tok + ">"), tok)
            && ['<'] + (['@'] + (bot + ">")) == tok
  {
    var tok := Token(bot);
    var s0 := "<@" + tok + ">";
    assert s0[..|tok|][2] == s0[2] == '<' && tok[2] == 'a';
    assert (['@'] + (tok + ">"))[..|tok|][0] == '@';
  }

  /** The token alone becomes the replacement text. */
  lemma StrippingToken(bot: string)
    ensures ReplaceMention(bot, Token(bot)) == Placeholder
  {
    var tok := Token(bot);
    ReplaceAllHead(tok, Placeholder, "");
    assert tok + "" == tok;
  }

  /** A character at which no occurrence starts is copied to the output. */
  lemma ReplaceAllSkip(c: char, rest: string, tok: string, repl: string)
    requires |tok| > 0 && !StartsWith([c] + rest, tok)
    ensures ReplaceAll([c] + rest, tok, repl) == [c] + ReplaceAll(rest, tok, repl)
  {
    assert ([c] + rest)[1..] == rest;
  }

  /** A text without the token is passed through unchanged. */
  lemma ReplaceMentionWithoutToken(bot: string, text: string)
    requires !IsMention(bot, text)
    ensures ReplaceMention(bot, text) == text
  {
  }
}

=== FILE: pipeline.dfy ===
/** The round trip through the backend: a Slack message becomes a run whose
    metadata the backend echoes in its callback, and the callback is posted
    back into the conversation the message came from. The echo is the
    backend's behaviour, stated here as `EchoMetadata`. */
module Pipeline {
  import opened Wrappers
  import opened Strings
  import opened Events
  import opened ThreadIdentity
  import Mention
  import Classifier
  import BlockText
  import Markdown
  import Dispatch
  import Correlator
  import Worker

  /** The callback metadata the backend sends back for a run: the run's own
      metadata, echoed unchanged. */
  function EchoMetadata(m: Dispatch.RunMetadata): CallbackMeta {
    CallbackMeta(Some(m.channel), m.threadTs, Some(m.eventTs))
  }

  /** The callback body the backend posts for a run whose final state holds
      `messages`. */
  function Echo(run: Dispatch.RunRequest, messages: seq<Message>): CallbackPayload {
    CallbackPayload(run.threadId, messages, EchoMetadata(run.metadata))
  }

  /** The reply lands where the question was asked: in the event's channel,
      under the event's anchor timestamp (the thread root, or the message
      itself when it started no thread), tagged with the run's thread id. */
  lemma ReplyLandsInConversation(cfg: Config, e: ChatEvent, messages: seq<Message>)
    requires e.text.Some? && e.channel != ""
    requires |messages| > 0 && BlockText.GetText(messages[|messages| - 1].content).Success?
    ensures var run := Dispatch.BuildRun(cfg, e).value;
            var post := Correlator.Correlate(cfg, Echo(run, messages));
            && post.Success?
            && post.value.channel == e.channel
            && post.value.threadTs == Some(Anchor(e))
            && post.value.threadId == run.threadId
  {
  }

  /** A qualifying event is enqueued and, with no sentinel ahead of it, the
      worker issues its run. */
  lemma QualifyingEventIsDispatched(cfg: Config, queue: seq<Task>, e: ChatEvent)
    requires e.text.Some? && Classifier.Qualifies(cfg.botUserId, e)
    requires forall i :: 0 <= i < |queue| ==> !queue[i].Sentinel?
    ensures Classifier.HandleMessage(cfg.botUserId, queue, e).Success?
    ensures var q := Classifier.HandleMessage(cfg.botUserId, queue, e).value;
            |Worker.Drain(cfg, q).attempts| == |queue| + 1
            && Worker.Drain(cfg, q).attempts[|queue|].outcome
               == Success(Worker.Run(Dispatch.BuildRun(cfg, e).value))
  {
    var q := Classifier.HandleMessage(cfg.botUserId, queue, e).value;
    Worker.DrainAppend(cfg, queue, [SlackMessage(e)]);
    assert Worker.Drain(cfg, [SlackMessage(e)]).attempts[0].task == SlackMessage(e);
  }

  /** An ignored event leaves the queue, and so the worker's trace, as it was. */
  lemma IgnoredEventIsNotDispatched(cfg: Config, queue: seq<Task>, e: ChatEvent)
    requires e.text.Some? && !Classifier.Qualifies(cfg.botUserId, e)
    ensures Classifier.HandleMessage(cfg.botUserId, queue, e) == Success(queue)
    ensures Worker.Drain(cfg, Classifier.HandleMessage(cfg.botUserId, queue, e).value) == Worker.Drain(cfg, queue)
  {
  }

  /** A mention at the head of a channel message: "<@bot> hello" from a new
      conversation in channel C1 at ts 100.1 runs on the thread named
      "SLACK:100.1-C1" with the input "assistant hello". */
  lemma MentionScenario(cfg: Config, e: ChatEvent)
    requires e.text == Some(Mention.Token(cfg.botUserId) + " hello")
    requires e.ts == "100.1" && e.threadTs.None? && e.channel == "C1"
    ensures Dispatch.BuildRun(cfg, e).value.input[0].content == "assistant hello"
    ensures Dispatch.BuildRun(cfg, e).value.threadId == cfg.uuid5("SLACK:100.1-C1")
  {
    MentionAtHead(cfg.botUserId, " hello");
    ScenarioNames(e.ts, e.channel, " hello");
  }

  /** A leading mention followed by text without '<' becomes "assistant"
      followed by that text. */
  lemma MentionAtHead(bot: string, rest: string)
    requires '<' !in rest
    ensures Mention.ReplaceMention(bot, Mention.Token(bot) + rest) == Mention.Placeholder + rest
  {
    var tok := Mention.Token(bot);
    Mention.ReplaceAllHead(tok, Mention.Placeholder, rest);
    NotOccursWithoutHead(rest, tok);
  }

  /** Markdown bold in a reply is posted as Slack bold: "Hi **there**" is
      posted as "Hi *there*", and so is any one-line `p**x**` without stars,
      links or dashes. */
  lemma BoldReplyScenario(cfg: Config, p: CallbackPayload, pre: string, x: string)
    requires '*' !in pre && '[' !in pre && '\n' !in pre && '-' !in pre
    requires |x| > 0 && '*' !in x && '[' !in x && '\n' !in x
    requires |p.messages| > 0 && Truthy(Correlator.ReplyChannel(cfg, p.metadata))
    requires p.messages[|p.messages| - 1].content == Plain(pre + ("**" + x + "**"))
    ensures Correlator.Correlate(cfg, p).Success?
    ensures Correlator.Correlate(cfg, p).value.text == pre + ("*" + x + "*")
  {
    PostedText(cfg, p, pre + ("**" + x + "**"));
    Markdown.IntendedBoldStaysBold(pre, x);
  }

  /** "Hi **there**": the rule order as written gives "Hi _there_", the
      corrected order "Hi *there*". The two words are parameters pinned to
      their literals, so that the proof goes through the general lemmas
      rather than unfolding the scans character by character. */
  lemma HiThereScenario(hi: string, there: string)
    requires hi == "Hi " && there == "there"
    ensures Markdown.CleanMarkdown(hi + ("**" + there + "**")) == "Hi _there_"
    ensures Markdown.CleanMarkdownIntended(hi + ("**" + there + "**")) == "Hi *there*"
  {
    assert '*' !in hi && '[' !in hi && '\n' !in hi && '-' !in hi;
    assert '*' !in there && '[' !in there && '\n' !in there;
    Markdown.BoldRendersAsItalic(hi, there);
    Markdown.IntendedBoldStaysBold(hi, there);
    HiThereSpelled(hi, there);
  }

  /** A plain-text last message is posted through the converter. */
  lemma PostedText(cfg: Config, p: CallbackPayload, text: string)
    requires |p.messages| > 0 && Truthy(Correlator.ReplyChannel(cfg, p.metadata))
    requires p.messages[|p.messages| - 1].content == Plain(text)
    ensures Correlator.Correlate(cfg, p).Success?
    ensures Correlator.Correlate(cfg, p).value.text == Markdown.CleanMarkdownIntended(text)
  {
    var last := p.messages[|p.messages| - 1];
    assert BlockText.GetText(last.content) == Success(text);
  }

  /** A callback whose metadata carries no channel, under a configuration
      with none either, raises and posts nothing. */
  lemma MissingChannelScenario(cfg: Config, p: CallbackPayload)
    requires |p.messages| > 0
    requires p.metadata.channel.None? && cfg.defaultChannel.None?
    ensures Correlator.Correlate(cfg, p) == Failure(MissingChannel)
    ensures Worker.ProcessTask(cfg, Callback(p)) == Failure(MissingChannel)
  {
  }

  // Spelling of the literal texts used by the scenarios above, kept apart
  // from them so that the solver checks the literals on their own. The
  // literals come in as parameters pinned by `requires`: written inline, the
  // solver would unfold the rewriting scans over each character of them.

  lemma ScenarioNames(ts: string, channel: string, rest: string)
    requires ts == "100.1" && channel == "C1" && rest == " hello"
    ensures ThreadKey(ts, channel) == "SLACK:100.1-C1"
    ensures Mention.Placeholder + rest == "assistant hello"
  {
  }

  lemma HiThereSpelled(hi: string, there: string)
    requires hi == "Hi " && there == "there"
    ensures hi + ("_" + there + "_") == "Hi _there_"
    ensures hi + ("*" + there + "*") == "Hi *there*"
  {
  }
}

=== FILE: strings.dfy ===
/** String helpers shared by the text adapters: prefix tests, substring
    search, the greedy character-class runs of the regular expressions, and
    Python's truthiness of an optional string. */
module Strings {
  import opened Wrappers

  predicate StartsWith(s: string, p: string) {
    |p| <= |s| && s[..|p|] == p
  }

  /** `t` occurs somewhere in `s` (what `re.search` with a literal pattern finds). */
  predicate Occurs(s: string, t: string) {
    exists i :: 0 <= i <= |s| && StartsWith(s[i..], t)
  }

  /** Index of the first `c` in `s`, or `|s|` when there is none: the end of
      the greedy run `[^c]*` that starts at the beginning of `s`. */
  function FirstIndex(s: string, c: char): (k: nat)
    ensures k <= |s|
    ensures k < |s| ==> s[k] == c
    ensures forall j :: 0 <= j < k ==> s[j] != c
    decreases |s|
  {
    if |s| == 0 then 0
    else if s[0] == c then 0
    else 1 + FirstIndex(s[1..], c)
  }

  /** The characters Python's `\s` matches in a `str` pattern (those for which
      `str.isspace` holds). */
  predicate IsSpace(c: char) {
    || ('\t' <= c <= '\r')
    || ('\U{1C}' <= c <= '\U{1F}')
    || c == ' ' || c == '\U{85}' || c == '\U{A0}' || c == '\U{1680}'
    || ('\U{2000}' <= c <= '\U{200A}')
    || c == '\U{2028}' || c == '\U{2029}' || c == '\U{202F}' || c == '\U{205F}'
    || c == '\U{3000}'
  }

  /** Length of the greedy run `\s*` at the beginning of `s`. */
  function SpaceRun(s: string): (k: nat)
    ensures k <= |s|
    ensures forall j :: 0 <= j < k ==> IsSpace(s[j])
    ensures k < |s| ==> !IsSpace(s[k])
    decreases |s|
  {
    if |s| == 0 || !IsSpace(s[0]) then 0
    else 1 + SpaceRun(s[1..])
  }

  /** Python truthiness of an optional string: present and non-empty. */
  predicate Truthy(o: Option<string>) {
    o.Some? && o.value != ""
  }

  /** Python's `a or b` on optional strings. */
  function Or(a: Option<string>, b: Option<string>): Option<string> {
    if Truthy(a) then a else b
  }

  /** What an f-string renders for an optional string (`None` becomes "None"). */
  function Render(o: Option<string>): string {
    match o
    case Some(s) => s
    case None => "None"
  }

  lemma FirstIndexAt(p: string, c: char, rest: string)
    requires c !in p
    ensures FirstIndex(p + [c] + rest, c) == |p|
  {
    var s := p + [c] + rest;
    assert s[|p|] == c;
    assert forall j :: 0 <= j < |p| ==> s[j] == p[j];
  }

  /** An occurrence in a proper suffix is an occurrence in the whole. */
  lemma OccursInTail(s: string, t: string)
    requires |s| > 0
    ensures Occurs(s[1..], t) ==> Occurs(s, t)
  {
    if Occurs(s[1..], t) {
      var i :| 0 <= i <= |s[1..]| && StartsWith(s[1..][i..], t);
      assert s[1..][i..] == s[i + 1..];
    }
  }

  /** A text that lacks the first character of `t` does not contain `t`. */
  lemma NotOccursWithoutHead(s: string, t: string)
    requires |t| > 0 && t[0] !in s
    ensures !Occurs(s, t)
  {
    forall i | 0 <= i <= |s|
      ensures !StartsWith(s[i..], t)
    {
      if i < |s| {
        assert s[i..][0] == s[i];
      }
    }
  }

  // ------------------------------------------------------------------
  // Concatenation shapes, used by the proofs of the other modules to keep
  // sequence equality out of proofs that also unfold the rewriting scans.
  // ------------------------------------------------------------------

  /** Concatenation regrouped. */
  lemma Assoc<T>(a: seq<T>, b: seq<T>, c: seq<T>)
    ensures a + (b + c) == a + b + c
  {
  }

  lemma AppendEmpty<T>(a: seq<T>)
    ensures a + [] == a && [] + a == a
  {
  }

  /** A non-empty prefix split into its head and the rest. */
  lemma SplitHead<T>(p: seq<T>, rest: seq<T>)
    requires |p| > 0
    ensures (p + rest)[0] == p[0] && (p + rest)[1..] == p[1..] + rest
    ensures p == [p[0]] + p[1..]
  {
  }
}

=== FILE: thread_identity.dfy ===
/** Thread identity: a Slack conversation is named by its anchor timestamp
    (`thread_ts` when non-empty, else the message's own `ts`) and its channel;
    the backend thread id is the name-based UUID of "SLACK:{anchor}-{channel}",
    and the run's webhook is "{DEPLOYMENT_URL}/callbacks/{thread_id}". */
module ThreadIdentity {
  import opened Wrappers
  import opened Strings
  import opened Events

  const KeyPrefix := "SLACK:"
  const CallbackPath := "/callbacks/"

  /** `event.get("thread_ts") or event["ts"]`. */
  function Anchor(e: ChatEvent): string {
    if Truthy(e.threadTs) then e.threadTs.value else e.ts
  }

  /** The name hashed into the thread id. */
  function ThreadKey(anchor: string, channel: string): string {
    KeyPrefix + anchor + "-" + channel
  }

  /** `_get_thread_id`: the hash itself is the opaque `uuid5` parameter. */
  function ThreadId(uuid5: string -> string, anchor: string, channel: string): string {
    uuid5(ThreadKey(anchor, channel))
  }

  /** The webhook the run reports to; an unset deployment URL renders "None". */
  function WebhookUrl(deploymentUrl: Option<string>, threadId: string): string {
    Render(deploymentUrl) + CallbackPath + threadId
  }

  /** The last path segment of a URL: what the `/callbacks/{thread_id}` route
      binds to `thread_id`, the suffix after the last '/'. */
  function LastSegment(url: string): (r: string)
    ensures |r| <= |url|
    ensures '/' !in r
    ensures url == url[..|url| - |r|] + r
    ensures |r| < |url| ==> url[|url| - |r| - 1] == '/'
    decreases |url|
  {
    if |url| == 0 || url[|url| - 1] == '/' then ""
    else
      var r := LastSegment(url[..|url| - 1]);
      SegmentGrows(url, r);
      r + [url[|url| - 1]]
  }

  /** The suffix of a URL's prefix, extended by the URL's last character. */
  lemma SegmentGrows(url: string, r: string)
    requires |url| > 0 && |r| <= |url| - 1
    requires url[..|url| - 1] == url[..|url| - 1][..|url| - 1 - |r|] + r
    ensures url == url[..|url| - 1 - |r|] + (r + [url[|url| - 1]])
    ensures |r| < |url| - 1 ==> url[..|url| - 1][|url| - 1 - |r| - 1] == url[|url| - 1 - |r| - 1]
  {
    assert url == url[..|url| - 1] + [url[|url| - 1]];
    assert url[..|url| - 1][..|url| - 1 - |r|] == url[..|url| - 1 - |r|];
  }

  /** Two events in the same channel share a thread id when their anchors
      agree: a reply whose `thread_ts` is the root's non-empty `ts` lands in
      the root's thread. */
  lemma ReplyJoinsRootThread(uuid5: string -> string, root: ChatEvent, reply: ChatEvent)
    requires !Truthy(root.threadTs) && root.ts != ""
    requires reply.threadTs == Some(root.ts) && reply.channel == root.channel
    ensures Anchor(reply) == Anchor(root) == root.ts
    ensures ThreadId(uuid5, Anchor(reply), reply.channel) == ThreadId(uuid5, Anchor(root), root.channel)
  {
  }

  /** The key names its (anchor, channel) pair uniquely as long as anchors
      contain no '-' (Slack timestamps are digits and a dot). */
  lemma ThreadKeyInjective(a1: string, c1: string, a2: string, c2: string)
    requires '-' !in a1 && '-' !in a2
    ensures ThreadKey(a1, c1) == ThreadKey(a2, c2) <==> a1 == a2 && c1 == c2
  {
    var k1 := ThreadKey(a1, c1);
    var k2 := ThreadKey(a2, c2);
    assert k1[|KeyPrefix|..] == a1 + ['-'] + c1;
    assert k2[|KeyPrefix|..] == a2 + ['-'] + c2;
    FirstIndexAt(a1, '-', c1);
    FirstIndexAt(a2, '-', c2);
    if k1 == k2 {
      var k := k1[|KeyPrefix|..];
      assert |a1| == |a2|;
      assert a1 == k[..|a1|] == a2;
      assert c1 == k[|a1| + 1..] == c2;
    }
  }

  /** Without that proviso the key is ambiguous: ("1-2", "C") and ("1", "2-C")
      compose the same name, hence the same thread id. */
  lemma ThreadKeyAmbiguous(uuid5: string -> string)
    ensures ThreadKey("1-2", "C") == ThreadKey("1", "2-C")
    ensures ThreadId(uuid5, "1-2", "C") == ThreadId(uuid5, "1", "2-C")
  {
  }

  /** The callback route recovers the thread id from the webhook URL, for any
      deployment URL, when the id contains no '/' (a UUID never does). */
  lemma {:induction false} WebhookNamesThread(deploymentUrl: Option<string>, threadId: string)
    requires '/' !in threadId
    ensures LastSegment(WebhookUrl(deploymentUrl, threadId)) == threadId
    decreases |threadId|
  {
    var url := WebhookUrl(deploymentUrl, threadId);
    if |threadId| == 0 {
      assert url[|url| - 1] == '/';
    } else {
      var init := threadId[..|threadId| - 1];
      WebhookUrlInit(deploymentUrl, threadId);
      WebhookNamesThread(deploymentUrl, init);
    }
  }

  /** Dropping the last character of the webhook drops the last character
      of its thread id. */
  lemma WebhookUrlInit(deploymentUrl: Option<string>, threadId: string)
    requires |threadId| > 0 && '/' !in threadId
    ensures var url := WebhookUrl(deploymentUrl, threadId);
            var init := threadId[..|threadId| - 1];
            && url[..|url| - 1] == WebhookUrl(deploymentUrl, init)
            && url[|url| - 1] == threadId[|threadId| - 1] != '/'
            && '/' !in init
            && init + [threadId[|threadId| - 1]] == threadId
  {
    var init := threadId[..|threadId| - 1];
    forall j | 0 <= j < |init| ensures init[j] != '/' { assert init[j] == threadId[j]; }
  }
}

=== FILE: worker.dfy ===
/** The background worker: it takes tasks off the queue in order, stops at
    the first falsy item (the shutdown sentinel, which it still marks done),
    and processes every other task; an exception is logged and the loop goes
    on, so a failing task never stops the worker. A drained queue is a
    fold over the task sequence. */
module Worker {
  import opened Wrappers
  import opened Events
  import Strings
  import Dispatch
  import Correlator

  /** The request a processed task issues. */
  datatype Effect = Run(run: Dispatch.RunRequest) | Post(post: Correlator.PostRequest)

  /** `_process_task`. A falsy `{}` item raises on `task["event"]`; the
      worker itself never passes it here. */
  function ProcessTask(cfg: Config, t: Task): (r: Result<Effect, Error>)
    ensures t.Sentinel? ==> r == Failure(MissingKey("event"))
    ensures t.Unknown? ==> r == Failure(UnknownType(t.kind))
    ensures t.SlackMessage? ==> (r.Success? <==> t.event.text.Some?)
    ensures t.SlackMessage? && r.Failure? ==> r.error == MissingKey("text")
    ensures t.SlackMessage? && r.Success? ==> r.value.Run? && r.value.run == Dispatch.BuildRun(cfg, t.event).value
    ensures t.Callback? ==> (r.Success? <==> Correlator.Correlate(cfg, t.payload).Success?)
    ensures t.Callback? && r.Success? ==> r.value.Post? && r.value.post == Correlator.Correlate(cfg, t.payload).value
    ensures r.Failure? && t.Callback? ==> r.error == Correlator.Correlate(cfg, t.payload).error
  {
    match t
    case Sentinel => Failure(MissingKey("event"))
    case SlackMessage(e) =>
      var run := Dispatch.BuildRun(cfg, e);
      if run.Failure? then Failure(run.error) else Success(Run(run.value))
    case Callback(p) =>
      var post := Correlator.Correlate(cfg, p);
      if post.Failure? then Failure(post.error) else Success(Post(post.value))
    case Unknown(kind) => Failure(UnknownType(kind))
  }

  /** One task the worker handled and what came of it. */
  datatype Attempt = Attempt(task: Task, outcome: Result<Effect, Error>)

  /** The worker's trace over a queue: the tasks it processed, how many
      `task_done` calls it made, whether it met the sentinel, and the tasks
      left behind it. */
  datatype WorkerRun = WorkerRun(attempts: seq<Attempt>, taskDone: nat, stopped: bool, rest: seq<Task>)

  /** The worker loop over the queue `q`, as a fold. */
  function Drain(cfg: Config, q: seq<Task>): (w: WorkerRun)
    ensures |w.attempts| <= |q|
    ensures forall i :: 0 <= i < |w.attempts| ==> !q[i].Sentinel? && w.attempts[i] == Attempt(q[i], ProcessTask(cfg, q[i]))
    ensures w.stopped <==> exists i :: 0 <= i < |q| && q[i].Sentinel?
    ensures w.stopped ==> |w.attempts| < |q| && q[|w.attempts|].Sentinel? && w.rest == q[|w.attempts| + 1..]
    ensures !w.stopped ==> |w.attempts| == |q| && w.rest == []
    ensures w.taskDone == |w.attempts| + (if w.stopped then 1 else 0)
    decreases |q|
  {
    if |q| == 0 then WorkerRun([], 0, false, [])
    else if q[0].Sentinel? then WorkerRun([], 1, true, q[1..])
    else
      var w := Drain(cfg, q[1..]);
      assert forall i :: 1 <= i < |q| ==> q[i] == q[1..][i - 1];
      WorkerRun([Attempt(q[0], ProcessTask(cfg, q[0]))] + w.attempts, w.taskDone + 1, w.stopped,
                w.rest)
  }

  /** The worker loop itself: process tasks until the sentinel, then record
      the stop and the `task_done` calls. */
  method RunWorker(cfg: Config, q: seq<Task>) returns (w: WorkerRun)
    ensures w == Drain(cfg, q)
  {
    var attempts, i := ProcessUntilSentinel(cfg, q);
    // `i` counts the `task_done` calls of the tasks processed so far.
    if i < |q| {
      w := WorkerRun(attempts, i + 1, true, q[i + 1..]);
    } else {
      w := WorkerRun(attempts, i, false, []);
    }
    DrainUnique(cfg, q, w);
  }

  /** One `get` per iteration, up to the first sentinel or the end of the
      queue: the tasks processed, in order, and where the loop stopped. */
  method ProcessUntilSentinel(cfg: Config, q: seq<Task>) returns (attempts: seq<Attempt>, i: nat)
    ensures i <= |q| && |attempts| == i
    ensures i < |q| ==> q[i].Sentinel?
    ensures forall j :: 0 <= j < i ==> !q[j].Sentinel?
    ensures forall j :: 0 <= j < i ==> attempts[j] == Attempt(q[j], ProcessTask(cfg, q[j]))
  {
    attempts := [];
    i := 0;
    while i < |q| && !q[i].Sentinel?
      invariant 0 <= i <= |q| && |attempts| == i
      invariant forall j :: 0 <= j < i ==> !q[j].Sentinel?
      invariant forall j :: 0 <= j < i ==> attempts[j] == Attempt(q[j], ProcessTask(cfg, q[j]))
    {
      var a := Attempt(q[i], ProcessTask(cfg, q[i]));
      assert forall j :: 0 <= j < i ==> (attempts + [a])[j] == attempts[j];
      attempts := attempts + [a];
      i := i + 1;
    }
  }

  /** A trace with Drain's properties is Drain's trace. */
  lemma DrainUnique(cfg: Config, q: seq<Task>, w: WorkerRun)
    requires |w.attempts| <= |q|
    requires forall i :: 0 <= i < |w.attempts| ==> !q[i].Sentinel? && w.attempts[i] == Attempt(q[i], ProcessTask(cfg, q[i]))
    requires |w.attempts| < |q| ==> q[|w.attempts|].Sentinel? && w.stopped && w.rest == q[|w.attempts| + 1..]
    requires |w.attempts| == |q| ==> !w.stopped && w.rest == []
    requires w.taskDone == |w.attempts| + (if w.stopped then 1 else 0)
    ensures w == Drain(cfg, q)
  {
    var d := Drain(cfg, q);
    assert forall i :: 0 <= i < |d.attempts| ==> !q[i].Sentinel?;
    assert forall i :: 0 <= i < |w.attempts| ==> !q[i].Sentinel?;
    assert |d.attempts| == |w.attempts|;
    assert d.attempts == w.attempts;
  }

  /** Draining a sentinel-free prefix and then the rest is draining the
      whole queue: the worker's trace is built task by task. */
  lemma {:induction false} DrainAppend(cfg: Config, a: seq<Task>, b: seq<Task>)
    requires forall i :: 0 <= i < |a| ==> !a[i].Sentinel?
    ensures Drain(cfg, a + b).attempts == Drain(cfg, a).attempts + Drain(cfg, b).attempts
    ensures Drain(cfg, a + b).stopped == Drain(cfg, b).stopped
    ensures Drain(cfg, a + b).rest == Drain(cfg, b).rest
    ensures Drain(cfg, a + b).taskDone == |a| + Drain(cfg, b).taskDone
    decreases |a|
  {
    if |a| == 0 {
      assert a == [];
      Strings.AppendEmpty(b);
    } else {
      Strings.SplitHead(a, b);
      DrainStep(cfg, a + b);
      DrainStep(cfg, a);
      DrainAppend(cfg, a[1..], b);
      Strings.Assoc([Attempt(a[0], ProcessTask(cfg, a[0]))], Drain(cfg, a[1..]).attempts, Drain(cfg, b).attempts);
    }
  }

  /** One task that is not the sentinel is processed, then the worker goes on. */
  lemma DrainStep(cfg: Config, q: seq<Task>)
    requires |q| > 0 && !q[0].Sentinel?
    ensures Drain(cfg, q).attempts == [Attempt(q[0], ProcessTask(cfg, q[0]))] + Drain(cfg, q[1..]).attempts
    ensures Drain(cfg, q).stopped == Drain(cfg, q[1..]).stopped
    ensures Drain(cfg, q).rest == Drain(cfg, q[1..]).rest
    ensures Drain(cfg, q).taskDone == Drain(cfg, q[1..]).taskDone + 1
  {
  }

  /** Shutdown: the tasks queued before the sentinel are all processed, in
      order, each once; the sentinel stops the loop, and whatever is queued
      after it is never processed. */
  lemma NTasksThenSentinel(cfg: Config, tasks: seq<Task>, later: seq<Task>)
    requires forall i :: 0 <= i < |tasks| ==> !tasks[i].Sentinel?
    ensures Drain(cfg, tasks + [Sentinel] + later).stopped
    ensures |Drain(cfg, tasks + [Sentinel] + later).attempts| == |tasks|
    ensures forall i :: 0 <= i < |tasks| ==>
              Drain(cfg, tasks + [Sentinel] + later).attempts[i] == Attempt(tasks[i], ProcessTask(cfg, tasks[i]))
    ensures Drain(cfg, tasks + [Sentinel] + later).rest == later
    ensures Drain(cfg, tasks + [Sentinel] + later).taskDone == |tasks| + 1
  {
    assert tasks + [Sentinel] + later == tasks + ([Sentinel] + later);
    DrainAppend(cfg, tasks, [Sentinel] + later);
    assert ([Sentinel] + later)[1..] == later;
  }

  /** A failing task never stops the worker: how far the worker gets
      depends on where the sentinel is, never on what the tasks raise. */
  lemma {:induction false} ErrorsNeverStopWorker(cfg1: Config, cfg2: Config, q: seq<Task>)
    ensures |Drain(cfg1, q).attempts| == |Drain(cfg2, q).attempts|
    ensures Drain(cfg1, q).stopped == Drain(cfg2, q).stopped
    ensures Drain(cfg1, q).rest == Drain(cfg2, q).rest
    ensures Drain(cfg1, q).taskDone == Drain(cfg2, q).taskDone
    decreases |q|
  {
    if |q| > 0 && !q[0].Sentinel? {
      ErrorsNeverStopWorker(cfg1, cfg2, q[1..]);
    }
  }

  /** An unknown task type raises and the worker moves on to the next task. */
  lemma UnknownTypeSkipped(cfg: Config, kind: string, q: seq<Task>)
    ensures Drain(cfg, [Unknown(kind)] + q).attempts[0].outcome == Failure(UnknownType(kind))
    ensures Drain(cfg, [Unknown(kind)] + q).attempts[1..] == Drain(cfg, q).attempts
  {
    DrainAppend(cfg, [Unknown(kind)], q);
  }
}

=== FILE: wrappers.dfy ===
/** Wrappers for the optional fields of JSON payloads and for operations
    that raise. */
module Wrappers {

  /** A field that may be absent (Python `dict.get` returning `None`). */
  datatype Option<+T> = None | Some(value: T)

  /** The outcome of an operation that either returns a value or raises. */
  datatype Result<+T, +E> = Success(value: T) | Failure(error: E)
}
